=== FILE: README.md ===
# Result-file reader and chart geometry, in Dafny

The viewer for spectrum-analyzer `.result` exports reads a measurement
table out of the decoded text, derives the Y-axis label from the unit in
the `Unit=` header, keeps the frequency markers the user typed and reads
their amplitude off the MaxPeak curve, protects the axis limits against
invalid values, plans the major ticks of the frequency axis, and picks the
authorised sub-bands to shade. This project models those rules as pure
Dafny functions and methods and proves what they promise.

Modules (one file each):

- `Options` (`options.dfy`): `Option` and `Result`.
- `Text` (`text.dfy`): the Python `str` operations the reader uses: `in`
  and `split(marker)` through a first-occurrence search, `strip`,
  `split("\t")` with `join` as its inverse, `splitlines`, `replace`,
  `lower` and `startswith`.
- `RealSeq` (`realseq.dfy`): extremes of a column, strict ascent, and
  `sorted(set(...))`.
- `ResultFile` (`resultfile.dfy`): the `[TableValues]` section, its lines
  and TAB fields, and the positional assignment to the seven columns
  Frequency_MHz, MaxPeak, Average, Height_cm, Polarization, Correction_dB
  and Comment.
- `Units` (`units.dfy`): the unit string and the Y-axis label.
- `Markers` (`markers.dfy`): marker parsing, the acceptance test, numpy's
  `interp`, and the marker legend text.
- `Axis` (`axis.dfy`): limit correction, `10^p`, the log and linear tick
  sets, and tick labels.
- `SubBands` (`subbands.dfy`): the static catalog and the visibility
  filter.
- `Chart` (`chart.dfy`): one pass over one file, in the order the script
  runs.

Three behaviours of the code are easy to misread, and the model follows
the code in each:

- The code never sorts the rows. Interpolation therefore requires strictly
  ascending frequencies (see "## Left out").
- The unit is compared without trimming, so the header
  `Unit=<TAB><TAB> dBm` gives the unit " dBm" and the generic label
  "Nível", not the power label. `Units.SpacedHeaderGivesGenericLabel`
  proves this.
- pandas pads ragged rows to the widest row, and assigning the seven
  column names (leitor_result.py:52) fails unless that row has exactly
  seven fields. A table whose rows are all narrower is rejected, not
  padded out to seven columns. The model returns `ColumnCountMismatch`
  with the width in that case; `ResultFile.NarrowTableIsRejected` shows
  it for a two-field table.

## Model

| member | source | states |
|---|---|---|
| Text.IndexOf | leitor_result.py:44-45 | the first occurrence of the marker; `None` exactly when the text does not contain it |
| Text.Strip | leitor_result.py:45 | the result is an infix of the input, only white space was removed at each end, and it neither starts nor ends with white space |
| Text.SplitLines | leitor_result.py:45 | no line contains a line break; empty text has no lines and non-empty text has at least one |
| Text.SplitLinesOnNewlines | leitor_result.py:45 | on text whose only breaks are `\n` and which does not end in one, the lines are the pieces of `split("\n")` |
| Text.Terminators | leitor_result.py:45 | one terminator per line; each is CR LF or one break character, except that the last line may have none, and then it is not empty |
| Text.SplitLinesRejoin | leitor_result.py:45 | the lines with their terminators put back give the text: `splitlines()` only removes the breaks |
| Text.SplitLinesOneLine | leitor_result.py:45 | a non-empty text without breaks is a single line |
| Text.SplitLinesCons | leitor_result.py:45 | a break-free line, a terminator (CR LF counts once; a lone CR only when no LF follows) and the rest split into that line followed by the lines of the rest |
| Text.FirstLineNotEmpty | leitor_result.py:45 | a text starting with a non-space character has a non-empty first line |
| Text.Split | leitor_result.py:48 | at least one piece, and no piece contains the separator |
| Text.JoinSplit | leitor_result.py:48 | joining the TAB fields of a line with TAB gives back the line |
| Text.SplitJoin | leitor_result.py:61 | splitting a TAB-join of TAB-free fields gives back those fields |
| Text.ReplaceChar | leitor_result.py:106 | same length; every `from` becomes `to` and every other character is unchanged |
| Text.Lower | leitor_result.py:67-69 | same length, every character mapped to its lower-case form |
| RealSeq.MinOf | leitor_result.py:120 | the smallest frequency: an element that is below or equal to every element |
| RealSeq.MaxOf | leitor_result.py:122-126 | the largest frequency: an element that is above or equal to every element |
| RealSeq.Insert | leitor_result.py:201 | inserting into a strictly increasing sequence keeps it strictly increasing and adds exactly the new value |
| RealSeq.SortedUnique | leitor_result.py:201 | `sorted(set(xs))`: strictly increasing, with exactly the values of `xs` |
| RealSeq.StrictlyIncreasingUnique | leitor_result.py:201 | two strictly increasing sequences with the same values are equal, so the sorted set is unique |
| ResultFile.TableSection | leitor_result.py:44-45 | `None` exactly when the marker is missing; otherwise the text right after the first marker, marker-free, ending at the next marker or at the end of the text |
| ResultFile.TableLines | leitor_result.py:45 | the lines of the stripped section: break-free, none for an empty section, the first one non-empty, and with their terminators they give back the stripped section |
| ResultFile.Width | leitor_result.py:48 | the column count of the frame: at least every row's field count, and equal to one of them (0 for no rows) |
| ResultFile.ToRow | leitor_result.py:48-52 | field k goes to column k; columns past the last field are `Missing` |
| ResultFile.PresentFieldsOfPadded | leitor_result.py:48-52 | reading the present cells of a padded row gives back its fields |
| ResultFile.BuildRows | leitor_result.py:48-52 | an error exactly when the widest line does not have seven TAB fields, carrying that width; otherwise one row per line, field k in column k, padded with `Missing`, re-joining to its line |
| ResultFile.NarrowTableIsRejected | leitor_result.py:48-52 | two lines of two fields each are rejected with width 2, not padded to seven columns |
| ResultFile.ParseTable | leitor_result.py:44-52 | `SectionNotFound` exactly when the marker is missing; rows exactly when the marker is present and the widest line of the trimmed section has seven fields, then one row per line, cells positional, re-joining to the line; otherwise the column-count error carrying that width |
| Units.FirstUnitLine | leitor_result.py:58-60 | the index of the first line starting with `Unit=`, and `None` exactly when no line does |
| Units.UnitFromLines | leitor_result.py:58-63 | the third TAB field of the first `Unit=` line when it has more than two fields, else `""`; never contains a TAB |
| Units.UnitOf | leitor_result.py:58-63 | the third TAB field of the first `splitlines()` line of the whole text that starts with `Unit=`, `""` when that line has at most two fields or there is none; no TAB and no line break in it |
| Units.FirstUnitLineAppend | leitor_result.py:58 | lines appended after a `Unit=` line do not move the first one |
| Units.FirstUnitLineWins | leitor_result.py:58-61 | lines after the first `Unit=` line do not change the unit |
| Units.UnitHeaderRoundTrip | leitor_result.py:58-63 | a first header `Unit=<TAB><TAB>u` with TAB-free `u` yields exactly `u` |
| Units.UnitOfHeaderLine | leitor_result.py:58-63 | a text starting with the header `Unit=<TAB><TAB>u` and CR LF has unit `u`, whatever follows |
| Units.YLabel | leitor_result.py:65-70 | the power label iff the lower-cased unit is `dbm`; the field-strength label iff it is one of the three dBuV/m spellings; "Nível" iff neither |
| Units.YLabelIgnoresCase | leitor_result.py:67-69 | a unit and its lower-cased form get the same label |
| Units.YLabelExamples | leitor_result.py:67-70 | `DBM` and `dBm` give the power label, `dBuV/m` and a capital-Greek-mu spelling give the field-strength label, `""` gives "Nível" |
| Units.YLabelDoesNotTrim | leitor_result.py:67 | " dBm" and "dBm " give "Nível" |
| Units.SpacedHeaderGivesGenericLabel | leitor_result.py:61-67 | the header `Unit=<TAB><TAB> dBm` yields the unit " dBm" and the label "Nível" |
| Markers.ParseFrequency | leitor_result.py:104-108 | commas become points before parsing; a rejected text gives 0.0, an accepted one gives the parsed value |
| Markers.Accepts | leitor_result.py:112 | the marker test accepts nothing when the typed window is inverted or ends at or below zero, and accepts the upper limit of any proper window whose upper limit is positive |
| Markers.Interp | leitor_result.py:114 | `np.interp` on ascending frequencies: the first sample's value at or below the first frequency, and inside the sampled range the straight line of a segment `[xp[k], xp[k+1])` that contains the frequency |
| Markers.LerpBetween | leitor_result.py:114 | on a segment the straight line stays between the two end values |
| Markers.InterpAtSample | leitor_result.py:114 | at a sample frequency the interpolated value is that sample's value |
| Markers.InterpClamps | leitor_result.py:114 | at or below the first frequency the value is the first sample's; at or above the last, the last sample's |
| Markers.InterpBetweenSamples | leitor_result.py:114 | strictly between two neighbouring samples the value is on their straight line and between their values |
| Markers.InterpWithinRange | leitor_result.py:114 | the interpolated value lies between the smallest and the largest sample value |
| Markers.Attenuate | leitor_result.py:114 | every MaxPeak value minus the attenuator, same length |
| Markers.InterpAttenuate | leitor_result.py:114 | interpolating the attenuated curve equals interpolating and then subtracting the attenuator |
| Markers.Resolve | leitor_result.py:112-115 | a marker exists iff its parsed frequency is positive and within the typed limits; its frequency and colour are the typed ones; its amplitude is `Interp` of the MaxPeak curve at that frequency minus the attenuator, so it is within the attenuated MaxPeak range and equals the attenuated sample at a sample frequency |
| Markers.UnparsableIsNoMarker | leitor_result.py:105-112 | text the parser rejects never becomes a marker |
| Markers.ResolveAll | leitor_result.py:99-115 | every kept marker passes the acceptance test and is what `Resolve` makes of one of the inputs; every input that resolves is kept |
| Markers.ResolveAllAppend | leitor_result.py:99-115 | the markers of two input lists in a row are those of the first followed by those of the second, so input order is kept |
| Markers.ResolveAllSingle | leitor_result.py:112-115 | one input gives its resolved marker when `Resolve` keeps it, and nothing otherwise |
| Markers.MarkerLabel | leitor_result.py:172 | the legend text is the frequency text with its points turned into commas, then " MHz, ", then the amplitude text with points turned into commas, a space and the unit; so no character before the unit is a decimal point |
| Axis.CorrectLimits | leitor_result.py:118-127 | on the log scale the lower limit ends up positive, and a non-positive one becomes max(smallest frequency, 0.001); otherwise it is kept; the upper limit is kept iff it exceeds the corrected lower one, else it becomes the largest frequency |
| Axis.CorrectLimitsIdempotent | leitor_result.py:118-127 | correcting twice equals correcting once |
| Axis.CorrectedWindowNonEmptyIff | leitor_result.py:118-127 | after correction the window is proper iff the typed upper limit or the largest frequency exceeds the corrected lower limit |
| Axis.Pow10 | leitor_result.py:195 | every power of ten is positive |
| Axis.DecadeTicks | leitor_result.py:194-199 | the kept values of one decade are in the window and of the form s·10^p; every such value in the window is kept |
| Axis.PlanLogTicks | leitor_result.py:189-201 | strictly increasing; both limits present; every other tick is a grid value s·10^p inside the window; every grid value inside the window present; with ordered limits all ticks lie in the window |
| Axis.PlanLinearTicks | leitor_result.py:211-216 | strictly increasing, and its values are exactly the backend's ticks plus both limits |
| Axis.LinearLimitsOnce | leitor_result.py:212-216 | each limit appears once among the linear ticks |
| Axis.RoundHalfEven | leitor_result.py:204 | Python's `round`: within 0.5 of the input, ties to the even integer |
| Axis.Digits | leitor_result.py:204 | a non-empty string of decimal digits, starting with 0 only for n = 0, so there is no leading zero |
| Axis.DigitsRoundTrip | leitor_result.py:204 | reading back the digits of n gives n |
| Axis.LeadingDigitPositive | leitor_result.py:204 | a digit string without a leading zero denotes at least 1 |
| Axis.DigitsUnique | leitor_result.py:204 | the only decimal writing of n without a leading zero is `Digits(n)` |
| Axis.IntToDecimal | leitor_result.py:204 | `str(n)`: digits without a leading zero reading back to n, after a minus sign when n is negative |
| Axis.TickLabel | leitor_result.py:204 | never contains a decimal point; a tick within 1e-6 of an integer is labelled with that integer; any other tick with its general rendering, every point turned into a comma |
| Axis.TickLabelExamples | leitor_result.py:204 | 2450.0 is labelled "2450" and 2450.5 (rendered "2450.5") is labelled "2450,5" |
| SubBands.CategoryColor | leitor_result.py:176 | each category's colour is `#` followed by six upper-case hexadecimal digits |
| SubBands.Catalog | leitor_result.py:20-34 | three categories in the catalog's order, and every band has 0 < start < end |
| SubBands.Flatten | leitor_result.py:177-178 | the iterated overlays are exactly the catalog's bands under their categories |
| SubBands.FlattenSingle | leitor_result.py:178 | one category's overlays are its bands in order, each under that category |
| SubBands.FlattenAppend | leitor_result.py:177-178 | flattening two catalogs in a row gives the first's overlays followed by the second's, so the iteration goes category by category in order |
| SubBands.Visible | leitor_result.py:179 | a band is drawn iff it starts at or below the upper limit and ends at or above the lower one; for a proper band and window, iff they share a frequency |
| SubBands.VisibleOverlays | leitor_result.py:177-181 | an overlay is kept iff it is in the input and its band neither ends below nor starts above the window |
| SubBands.VisibleOverlaysKeepOrder | leitor_result.py:177-181 | the kept overlays are a subsequence of the input, so the catalog order is kept |
| SubBands.DrawnSubBands | leitor_result.py:175-181 | drawn bands are exactly the visible catalog bands, whole, in catalog order |
| SubBands.VisibilityCases | leitor_result.py:179 | a band covering the whole window is drawn; one ending below it or starting above it is not |
| Chart.Read | leitor_result.py:44-70 | the section error exactly when the marker is missing; with the marker, the column-count error carrying the table's width exactly when that width is not seven; otherwise rows that correspond one to one with the data lines, the unit of the text, and the Y-axis label `YLabel` gives for that unit |
| Chart.PlanChart | leitor_result.py:99-216 | markers are `ResolveAll` of the inputs against the typed limits; the limits are then corrected; ticks are strictly increasing and hold both corrected limits; on the linear scale they are exactly the backend ticks plus the limits; on the log scale every other tick is an in-window grid value, every in-window grid value is a tick, and with ordered limits all ticks are in the window; the overlays are the visible catalog bands for the corrected window, or none |
| Chart.InvertedLimitsDropAllMarkers | leitor_result.py:112-126 | when the typed upper limit is below the lower one no marker is kept, and the correction sets the upper limit to the table's largest frequency on either scale |
| Chart.ThreeSampleExample | leitor_result.py:114 | for samples (100, -50), (200, -40), (300, -45), the value at 150 is -45, at 200 is -40, and at 1000 is -45 |

## Left out

- Streamlit widgets, uploads, titles and download buttons (leitor_result.py:15-17, 36-38, 73-110, 129-156, 222-245): these are user-interface plumbing. The values they supply become parameters.
- UTF-16 decoding (leitor_result.py:41) and locale setup (leitor_result.py:9-13): the model takes already-decoded text.
- Numeric coercion with `pd.to_numeric(errors='ignore')` (leitor_result.py:55): this is pandas behaviour. Cells stay text, and the numeric rules take the frequency and MaxPeak columns as `seq<real>`.
- ColumnCountMismatch: in the script the failed column assignment (leitor_result.py:52) is an uncaught pandas `ValueError`. It ends the whole run, with no `st.error` message, and later uploaded files are not processed. A missing section, in contrast, is reported (leitor_result.py:247-248) and the loop goes on to the next file. The model returns both as a per-file `Err` and does not model the end of the run.
- The `"MaxPeak" in df.columns` test (leitor_result.py:113): it always holds once the seven names are assigned, so it is not a branch in the model.
- Markers.Resolve: requires strictly ascending table frequencies. The script neither checks nor establishes this, and numpy's result on unsorted frequencies is not modelled.
- Markers.ResolveAll: same precondition as `Markers.Resolve`.
- Chart.PlanChart: same precondition as `Markers.Resolve`.
- Python's `float()` grammar (leitor_result.py:106): the number parser is a parameter. NaN and infinities are not modelled, and neither is float rounding. Reals are exact, including `10 ** p` and `s * decade`.
- `np.log10`, `floor` and `ceil` for the decade bounds (leitor_result.py:191-192): `startPow` and `endPow` are parameters.
- `ax.get_xticks()` (leitor_result.py:211): the backend's natural ticks are an arbitrary input sequence.
- `str(mx)`, `round(my, 1)` and `f"{x:g}"` renderings (leitor_result.py:172, 204, 217): these are inputs as already-rendered text. Only the integer branch of the tick label and the point-to-comma replacement are modelled.
- Text.Lower: maps only ASCII, Latin-1 and Greek capitals, not all of Unicode. No other character lowers to a letter of `dbm` or of the dBuV/m spellings, so the Y-axis label is unaffected.
- Drawing: curves, styles, legend, `axvspan` alpha, minor `LogLocator`, `set_xlim`, grid and PNG export (leitor_result.py:129-168, 183-187, 203-210, 219-226) are not modelled. Only positions, labels and the overlay list are.
- The three-column CSV export (leitor_result.py:236-238) is left out: it is a projection handed to pandas' CSV writer.
- Marker inputs: the script offers exactly four. The model accepts any sequence.

=== FILE: axis.dfy ===
/** The frequency axis: the correction applied to the limits the user
    typed, and the major tick positions and labels for the linear and the
    logarithmic scale. */
module Axis {
  import opened Text
  import opened RealSeq

  /** The scale of the frequency axis. */
  datatype Scale = Linear | Log

  /** The visible frequency window `[xMin, xMax]` in MHz. */
  datatype Limits = Limits(xMin: real, xMax: real)

  /** The smallest lower limit the log scale falls back to. */
  const LogFloor: real := 0.001

  // ---------------------------------------------------------------------
  // Limit correction
  // ---------------------------------------------------------------------

  /** The limits after the protection against invalid ones: on the log
      scale a non-positive lower limit becomes the table's smallest
      frequency, but at least `LogFloor`; on both scales an upper limit not
      above the (corrected) lower one becomes the table's largest frequency. */
  function CorrectLimits(lim: Limits, scale: Scale, freqs: seq<real>): (r: Limits)
    requires |freqs| > 0
    ensures scale == Log ==> r.xMin > 0.0
    ensures scale == Linear || lim.xMin > 0.0 ==> r.xMin == lim.xMin
    ensures scale == Log && lim.xMin <= 0.0 ==>
              && r.xMin >= LogFloor && r.xMin >= MinOf(freqs)
              && (r.xMin == LogFloor || r.xMin == MinOf(freqs))
    ensures lim.xMax > r.xMin ==> r.xMax == lim.xMax
    ensures lim.xMax <= r.xMin ==> r.xMax in freqs && forall i :: 0 <= i < |freqs| ==> freqs[i] <= r.xMax
  {
    var xMin :=
      if scale == Log && lim.xMin <= 0.0 then
        (if MinOf(freqs) >= LogFloor then MinOf(freqs) else LogFloor)
      else lim.xMin;
    var xMax := if lim.xMax <= xMin then MaxOf(freqs) else lim.xMax;
    Limits(xMin, xMax)
  }

  /** Correcting limits that were already corrected changes nothing. */
  lemma CorrectLimitsIdempotent(lim: Limits, scale: Scale, freqs: seq<real>)
    requires |freqs| > 0
    ensures CorrectLimits(CorrectLimits(lim, scale, freqs), scale, freqs)
            == CorrectLimits(lim, scale, freqs)
  {
  }

  /** The corrected window is still inverted or empty exactly when neither
      the typed upper limit nor the table's largest frequency exceeds the
      corrected lower limit. */
  lemma CorrectedWindowNonEmptyIff(lim: Limits, scale: Scale, freqs: seq<real>)
    requires |freqs| > 0
    ensures var r := CorrectLimits(lim, scale, freqs);
            r.xMin < r.xMax <==> lim.xMax > r.xMin || MaxOf(freqs) > r.xMin
  {
  }

  // ---------------------------------------------------------------------
  // Log-scale ticks
  // ---------------------------------------------------------------------

  /** Ten to the integer power `p` (Python's `10 ** p`, exact). */
  function Pow10(p: int): (r: real)
    ensures r > 0.0
    decreases if p < 0 then -p else p
  {
    if p == 0 then 1.0
    else if p > 0 then 10.0 * Pow10(p - 1)
    else Pow10(p + 1) / 10.0
  }

  /** The grid value `s * 10^p`. */
  function Candidate(s: int, p: int): real {
    s as real * Pow10(p)
  }

  /** `t` is `s * 10^p` for a mantissa `s` in 1..9. */
  ghost predicate InDecade(t: real, p: int) {
    exists s :: 1 <= s <= 9 && t == Candidate(s, p)
  }

  /** `t` is `s * 10^p` for a mantissa `s` in 1..9 and a decade `p` in
      `[startPow, endPow]`. */
  ghost predicate OnGrid(t: real, startPow: int, endPow: int) {
    exists p :: startPow <= p <= endPow && InDecade(t, p)
  }

  /** The values `s * 10^p`, `s` in 1..9, of one decade that lie in the
      window, in ascending order of `s`. */
  method DecadeTicks(xMin: real, xMax: real, p: int) returns (vals: seq<real>)
    ensures forall t :: t in vals ==> xMin <= t <= xMax && InDecade(t, p)
    ensures forall s :: 1 <= s <= 9 && xMin <= Candidate(s, p) <= xMax ==> Candidate(s, p) in vals
  {
    vals := [];
    var decade := Pow10(p);
    var s := 1;
    while s < 10
      invariant 1 <= s <= 10
      invariant forall t :: t in vals ==> xMin <= t <= xMax && InDecade(t, p)
      invariant forall s' :: 1 <= s' < s && xMin <= Candidate(s', p) <= xMax ==> Candidate(s', p) in vals
    {
      var v := s as real * decade;
      if xMin <= v <= xMax {
        assert v == Candidate(s, p);
        vals := vals + [v];
      }
      s := s + 1;
    }
  }

  /** The major ticks of the log scale: every grid value `s * 10^p` with
      `s` in 1..9 and `p` in `[startPow, endPow]` that lies in the window,
      plus both limits, without duplicates and in ascending order. The
      decade exponents are the floor and ceiling of the limits' base-10
      logarithms, computed by the caller. */
  method PlanLogTicks(xMin: real, xMax: real, startPow: int, endPow: int) returns (ticks: seq<real>)
    ensures StrictlyIncreasing(ticks)
    ensures xMin in ticks && xMax in ticks
    ensures forall t :: t in ticks ==>
              t == xMin || t == xMax || (xMin <= t <= xMax && OnGrid(t, startPow, endPow))
    ensures xMin <= xMax ==> forall t :: t in ticks ==> xMin <= t <= xMax
    ensures forall s, p :: 1 <= s <= 9 && startPow <= p <= endPow && xMin <= Candidate(s, p) <= xMax ==>
              Candidate(s, p) in ticks
  {
    var major: seq<real> := [];
    var p := startPow;
    while p <= endPow
      invariant startPow <= p && (p <= endPow + 1 || p == startPow)
      invariant forall t :: t in major ==> xMin <= t <= xMax && OnGrid(t, startPow, endPow)
      invariant forall s, q :: 1 <= s <= 9 && startPow <= q < p && xMin <= Candidate(s, q) <= xMax ==>
                  Candidate(s, q) in major
      decreases endPow + 1 - p
    {
      var vals := DecadeTicks(xMin, xMax, p);
      major := major + vals;
      p := p + 1;
    }
    ticks := SortedUnique(major + [xMin, xMax]);
  }

  // ---------------------------------------------------------------------
  // Linear-scale ticks
  // ---------------------------------------------------------------------

  /** The major ticks of the linear scale: the plotting backend's own tick
      positions `natural`, with each limit appended when it is not already
      among them, without duplicates and in ascending order. */
  function PlanLinearTicks(natural: seq<real>, xMin: real, xMax: real): (r: seq<real>)
    ensures StrictlyIncreasing(r)
    ensures forall t :: t in r <==> t in natural || t == xMin || t == xMax
  {
    var withMin := if xMin in natural then natural else natural + [xMin];
    var withMax := if xMax in withMin then withMin else withMin + [xMax];
    SortedUnique(withMax)
  }

  /** Each limit is a linear tick exactly once, even when the backend
      already placed a tick there. */
  lemma LinearLimitsOnce(natural: seq<real>, xMin: real, xMax: real, i: int, j: int)
    requires var r := PlanLinearTicks(natural, xMin, xMax);
             0 <= i < |r| && 0 <= j < |r| && (r[i] == r[j] == xMin || r[i] == r[j] == xMax)
    ensures i == j
  {
  }

  // ---------------------------------------------------------------------
  // Tick labels
  // ---------------------------------------------------------------------

  /** Python's `round(x)`: the nearest integer, ties to the even one. */
  function RoundHalfEven(x: real): (n: int)
    ensures -0.5 <= x - n as real <= 0.5
    ensures (x - n as real == 0.5 || x - n as real == -0.5) ==> n % 2 == 0
  {
    var f := x.Floor;
    var d := x - f as real;
    if d < 0.5 then f
    else if d > 0.5 then f + 1
    else if f % 2 == 0 then f
    else f + 1
  }

  /** The tolerance within which a tick counts as a whole number. */
  const IntegerTolerance: real := 0.000001

  /** `x` is within the tolerance of its rounded value. */
  predicate NearInteger(x: real) {
    var d := x - RoundHalfEven(x) as real;
    -IntegerTolerance < d < IntegerTolerance
  }

  /** The character of a decimal digit. */
  function DigitChar(d: nat): (c: char)
    requires d < 10
    ensures '0' <= c <= '9'
    ensures c as int - '0' as int == d
  {
    (d + '0' as int) as char
  }

  /** The decimal digits of a natural number, without leading zeros. */
  function Digits(n: nat): (r: string)
    ensures |r| > 0
    ensures forall i :: 0 <= i < |r| ==> '0' <= r[i] <= '9'
    ensures r[0] == '0' <==> n == 0
    ensures |r| > 1 ==> r[0] != '0'
    decreases n
  {
    if n < 10 then [DigitChar(n)] else Digits(n / 10) + [DigitChar(n % 10)]
  }

  /** The number a string of decimal digits denotes. */
  function DigitsValue(s: string): nat
    requires forall i :: 0 <= i < |s| ==> '0' <= s[i] <= '9'
  {
    if |s| == 0 then 0
    else DigitsValue(s[..|s| - 1]) * 10 + (s[|s| - 1] as int - '0' as int)
  }

  /** Reading back the digits of `n` gives `n`. */
  lemma {:induction false} DigitsRoundTrip(n: nat)
    ensures DigitsValue(Digits(n)) == n
    decreases n
  {
    if n >= 10 {
      var r := Digits(n);
      assert r[..|r| - 1] == Digits(n / 10);
      DigitsRoundTrip(n / 10);
    }
  }

  /** `s` is a non-empty run of decimal digits. */
  predicate IsDigits(s: string) {
    |s| > 0 && forall i :: 0 <= i < |s| ==> '0' <= s[i] <= '9'
  }

  /** A digit string without a leading zero denotes at least 1. */
  lemma {:induction false} LeadingDigitPositive(s: string)
    requires IsDigits(s) && s[0] != '0'
    ensures DigitsValue(s) >= 1
    decreases |s|
  {
    if |s| > 1 {
      var p := s[..|s| - 1];
      assert p[0] == s[0];
      LeadingDigitPositive(p);
    }
  }

  /** `Digits(n)` is the only way to write `n` in decimal without a
      leading zero. */
  lemma {:induction false} DigitsUnique(s: string, n: nat)
    requires IsDigits(s) && (|s| > 1 ==> s[0] != '0')
    requires DigitsValue(s) == n
    ensures s == Digits(n)
    decreases |s|
  {
    var p, c := s[..|s| - 1], s[|s| - 1];
    var d := c as int - '0' as int;
    if |s| == 1 {
      assert p == [];
      assert DigitChar(n) == c;
    } else {
      assert p[0] == s[0];
      LeadingDigitPositive(p);
      var m := DigitsValue(p);
      assert n == m * 10 + d && 0 <= d < 10;
      assert n / 10 == m && n % 10 == d;
      DigitsUnique(p, m);
      assert DigitChar(d) == c;
      assert s == p + [c];
    }
  }

  /** Python's `str(n)` for an integer: its digits, after a minus sign when
      it is negative. */
  function IntToDecimal(n: int): (r: string)
    ensures n >= 0 ==> IsDigits(r) && DigitsValue(r) == n && (|r| > 1 ==> r[0] != '0')
    ensures n < 0 ==> |r| > 1 && r[0] == '-' && IsDigits(r[1..]) && DigitsValue(r[1..]) == -n && r[1] != '0'
  {
    DigitsRoundTrip(if n >= 0 then n else -n);
    if n < 0 then
      var r := "-" + Digits(-n);
      assert r[1..] == Digits(-n);
      r
    else Digits(n)
  }

  /** The label of a tick at `x`: a whole number when `x` is within the
      tolerance of one, else the backend's general rendering `general` of
      `x` (Python's `f"{x:g}"`) with its decimal point turned into a comma. */
  function TickLabel(x: real, general: string): (r: string)
    ensures '.' !in r
    ensures NearInteger(x) ==> r == IntToDecimal(RoundHalfEven(x))
    ensures !NearInteger(x) ==> r == ReplaceChar(general, '.', ',')
  {
    if NearInteger(x) then IntToDecimal(RoundHalfEven(x))
    else ReplaceChar(general, '.', ',')
  }

  /** Whole and fractional ticks: 2450.0 reads "2450", 2450.5 reads
      "2450,5". */
  lemma TickLabelExamples()
    ensures TickLabel(2450.0, "2450") == "2450"
    ensures TickLabel(2450.5, "2450.5") == "2450,5"
  {
    assert RoundHalfEven(2450.0) == 2450;
    assert Digits(2450) == Digits(245) + "0";
    assert Digits(245) == Digits(24) + "5";
    assert Digits(24) == Digits(2) + "4";
    assert RoundHalfEven(2450.5) == 2450;
  }
}

=== FILE: chart.dfy ===
/** One pass of the reader over one file: the table and its unit, then the
    chart geometry in the order the script computes it. Markers are tested
    against the limits as typed; the correction comes after them and is
    what the ticks and the sub-band overlays see. */
module Chart {
  import opened Options
  import opened Text
  import opened RealSeq
  import opened ResultFile
  import opened Units
  import opened Markers
  import opened Axis
  import opened SubBands

  /** What the reader takes from one file. */
  datatype Reading = Reading(rows: seq<Row>, unit: string, yLabel: string)

  /** Reads a decoded `.result` text: the user-visible error when the
      `[TableValues]` marker is missing, the column-count error carrying
      the table's width when that width is not seven, else the rows, the
      unit and the Y-axis label. */
  function Read(content: string): (r: Result<Reading, ParseError>)
    ensures r == Err(SectionNotFound) <==> !Contains(content, TableMarker)
    ensures r.Ok? ==>
              TableSection(content).Some? && RowsOfLines(r.value.rows, TableLines(TableSection(content).value))
    ensures r.Ok? <==>
              TableSection(content).Some? && Width(FieldsOf(TableLines(TableSection(content).value))) == ColumnCount
    ensures r.Err? && r.error.ColumnCountMismatch? ==>
              && TableSection(content).Some?
              && r.error.columns == Width(FieldsOf(TableLines(TableSection(content).value)))
              && r.error.columns != ColumnCount
    ensures r.Ok? ==> r.value.unit == UnitOf(content) && '\t' !in r.value.unit
    ensures r.Ok? ==> r.value.yLabel == YLabel(r.value.unit)
  {
    match ParseTable(content)
    case Err(e) => Err(e)
    case Ok(rows) =>
      var unit := UnitOf(content);
      Ok(Reading(rows, unit, YLabel(unit)))
  }

  /** The settings the user supplies for one chart. */
  datatype Settings = Settings(
    limits: Limits,
    attenuatorDb: real,
    scale: Scale,
    showSubBands: bool,
    markers: seq<MarkerInput>)

  /** The geometry of one chart. */
  datatype Geometry = Geometry(
    markers: seq<Marker>,
    limits: Limits,
    ticks: seq<real>,
    overlays: seq<Overlay>)

  /** The chart geometry for a table with frequencies `freqs` and MaxPeak
      values `maxPeak`. The backend's own linear ticks `natural` and the
      decade exponents `startPow`/`endPow` of the corrected limits come
      from the caller. */
  method PlanChart(settings: Settings, parse: string -> Option<real>,
                   freqs: seq<real>, maxPeak: seq<real>,
                   natural: seq<real>, startPow: int, endPow: int) returns (g: Geometry)
    requires |freqs| == |maxPeak| > 0
    requires StrictlyIncreasing(freqs)
    ensures g.markers == ResolveAll(settings.markers, parse, settings.limits.xMin, settings.limits.xMax,
                                    freqs, maxPeak, settings.attenuatorDb)
    ensures g.limits == CorrectLimits(settings.limits, settings.scale, freqs)
    ensures StrictlyIncreasing(g.ticks)
    ensures g.limits.xMin in g.ticks && g.limits.xMax in g.ticks
    ensures settings.scale == Linear ==>
              forall t :: t in g.ticks <==> t in natural || t == g.limits.xMin || t == g.limits.xMax
    ensures settings.scale == Log && g.limits.xMin <= g.limits.xMax ==>
              forall t :: t in g.ticks ==> g.limits.xMin <= t <= g.limits.xMax
    ensures settings.scale == Log ==>
              forall t :: t in g.ticks ==>
                t == g.limits.xMin || t == g.limits.xMax
                || (g.limits.xMin <= t <= g.limits.xMax && OnGrid(t, startPow, endPow))
    ensures settings.scale == Log ==>
              forall s, p :: 1 <= s <= 9 && startPow <= p <= endPow && g.limits.xMin <= Candidate(s, p) <= g.limits.xMax ==>
                Candidate(s, p) in g.ticks
    ensures settings.showSubBands ==> g.overlays == DrawnSubBands(g.limits.xMin, g.limits.xMax)
    ensures settings.showSubBands ==>
              forall o :: o in g.overlays <==> InCatalog(o, Catalog()) && Visible(o.band, g.limits.xMin, g.limits.xMax)
    ensures !settings.showSubBands ==> g.overlays == []
  {
    var markers := ResolveAll(settings.markers, parse, settings.limits.xMin, settings.limits.xMax,
                              freqs, maxPeak, settings.attenuatorDb);
    var limits := CorrectLimits(settings.limits, settings.scale, freqs);
    var overlays := if settings.showSubBands then DrawnSubBands(limits.xMin, limits.xMax) else [];
    var ticks;
    if settings.scale == Log {
      ticks := PlanLogTicks(limits.xMin, limits.xMax, startPow, endPow);
    } else {
      ticks := PlanLinearTicks(natural, limits.xMin, limits.xMax);
    }
    g := Geometry(markers, limits, ticks, overlays);
  }

  /** Markers see the limits as typed: with an inverted window no marker is
      kept, while the correction then sets the upper limit to the table's
      largest frequency, on either scale. */
  lemma InvertedLimitsDropAllMarkers(
    inputs: seq<MarkerInput>, parse: string -> Option<real>, lim: Limits, scale: Scale,
    freqs: seq<real>, maxPeak: seq<real>, attenuatorDb: real)
    requires |freqs| == |maxPeak| > 0
    requires StrictlyIncreasing(freqs)
    requires lim.xMax < lim.xMin
    ensures ResolveAll(inputs, parse, lim.xMin, lim.xMax, freqs, maxPeak, attenuatorDb) == []
    ensures CorrectLimits(lim, scale, freqs).xMax == MaxOf(freqs)
  {
    var r := ResolveAll(inputs, parse, lim.xMin, lim.xMax, freqs, maxPeak, attenuatorDb);
    assert |r| > 0 ==> r[0] in r && Accepts(r[0].frequency, lim.xMin, lim.xMax);
  }

  /** The worked example of a three-sample table, (100, -50), (200, -40),
      (300, -45): a marker at 150 reads -45, halfway between -50 and -40,
      and one at a sample reads that sample. */
  lemma ThreeSampleExample()
    ensures StrictlyIncreasing([100.0, 200.0, 300.0])
    ensures Interp(150.0, [100.0, 200.0, 300.0], [-50.0, -40.0, -45.0]) == -45.0
    ensures Interp(200.0, [100.0, 200.0, 300.0], [-50.0, -40.0, -45.0]) == -40.0
    ensures Interp(1000.0, [100.0, 200.0, 300.0], [-50.0, -40.0, -45.0]) == -45.0
  {
    var xp, fp := [100.0, 200.0, 300.0], [-50.0, -40.0, -45.0];
    assert Lerp(100.0, 200.0, -50.0, -40.0, 150.0) == -45.0;
    InterpAtSample(xp, fp, 1);
    InterpClamps(1000.0, xp, fp);
  }
}

=== FILE: markers.dfy ===
/** Frequency markers: the typed frequency, the test that keeps a marker,
    and its amplitude read off the MaxPeak curve by piecewise-linear
    interpolation with clamping at both ends (numpy's `interp`). */
module Markers {
  import opened Options
  import opened Text
  import opened RealSeq

  /** A resolved marker: where it sits, the attenuated MaxPeak amplitude
      there, and the colour chosen for it. */
  datatype Marker = Marker(frequency: real, amplitude: real, color: string)

  /** What the user typed for one marker, with its colour. */
  datatype MarkerInput = MarkerInput(text: string, color: string)

  /** The frequency of a typed marker: commas become decimal points and the
      result is handed to the number parser `parse` (Python's `float`); a
      text it rejects gives 0.0. */
  function ParseFrequency(text: string, parse: string -> Option<real>): (f: real)
    ensures parse(ReplaceChar(text, ',', '.')).None? ==> f == 0.0
    ensures parse(ReplaceChar(text, ',', '.')).Some? ==> f == parse(ReplaceChar(text, ',', '.')).value
  {
    match parse(ReplaceChar(text, ',', '.'))
    case None => 0.0
    case Some(v) => v
  }

  /** The marker test: a positive frequency inside the window the user
      typed. An inverted window, or one that ends at or below zero, accepts
      nothing; a window with a positive upper limit accepts that limit. */
  predicate Accepts(f: real, xMin: real, xMax: real): (ok: bool)
    ensures ok ==> xMin <= xMax && 0.0 < xMax
    ensures xMin <= xMax && 0.0 < xMax && f == xMax ==> ok
  {
    f > 0.0 && xMin <= f <= xMax
  }

  /** The straight line through `(x0, y0)` and `(x1, y1)` evaluated at `x`,
      written as numpy writes it: slope times distance from `x0`, plus `y0`. */
  function Lerp(x0: real, x1: real, y0: real, y1: real, x: real): real
    requires x0 < x1
  {
    (y1 - y0) / (x1 - x0) * (x - x0) + y0
  }

  /** On `[x0, x1]` the line stays between its end values. */
  lemma LerpBetween(x0: real, x1: real, y0: real, y1: real, x: real)
    requires x0 < x1
    requires x0 <= x <= x1
    ensures y0 <= y1 ==> y0 <= Lerp(x0, x1, y0, y1, x) <= y1
    ensures y1 <= y0 ==> y1 <= Lerp(x0, x1, y0, y1, x) <= y0
  {
    var t := (x - x0) / (x1 - x0);
    FractionInUnit(x - x0, x1 - x0);
    assert Lerp(x0, x1, y0, y1, x) == y0 + (y1 - y0) * t;
    Between(y0, y1, t);
  }

  /** A part of a positive whole is a fraction between 0 and 1. */
  lemma FractionInUnit(n: real, d: real)
    requires 0.0 < d && 0.0 <= n <= d
    ensures 0.0 <= n / d <= 1.0
  {
    assert n / d * d == n;
    assert (1.0 - n / d) * d == d - n;
  }

  /** Shifting both end values shifts the line. */
  lemma LerpShift(x0: real, x1: real, y0: real, y1: real, x: real, a: real)
    requires x0 < x1
    ensures Lerp(x0, x1, y0 - a, y1 - a, x) == Lerp(x0, x1, y0, y1, x) - a
  {
    assert (y1 - a) - (y0 - a) == y1 - y0;
  }

  /** The curve's value at `x`: `fp[0]` up to `xp[0]`, the last value from
      the last sample on, and on each segment the straight line through its
      two end samples. */
  function Interp(x: real, xp: seq<real>, fp: seq<real>): (y: real)
    requires |xp| == |fp| > 0
    requires StrictlyIncreasing(xp)
    ensures x <= xp[0] ==> y == fp[0]
    ensures xp[0] < x < xp[|xp| - 1] ==>
              exists k :: 0 <= k < |xp| - 1 && xp[k] <= x < xp[k + 1]
                          && y == Lerp(xp[k], xp[k + 1], fp[k], fp[k + 1], x)
  {
    if x <= xp[0] || |xp| == 1 then fp[0]
    else if x < xp[1] then Lerp(xp[0], xp[1], fp[0], fp[1], x)
    else
      var y := Interp(x, xp[1..], fp[1..]);
      if x == xp[1] && x < xp[|xp| - 1] then
        assert y == Lerp(xp[1], xp[2], fp[1], fp[2], x);
        y
      else if x < xp[|xp| - 1] then
        var j :| 0 <= j < |xp| - 2 && xp[1..][j] <= x < xp[1..][j + 1]
                 && y == Lerp(xp[1..][j], xp[1..][j + 1], fp[1..][j], fp[1..][j + 1], x);
        assert xp[1..][j] == xp[j + 1] && xp[1..][j + 1] == xp[j + 2];
        assert fp[1..][j] == fp[j + 1] && fp[1..][j + 1] == fp[j + 2];
        y
      else y
  }

  /** At a sample frequency the curve takes that sample's value. */
  lemma {:induction false} InterpAtSample(xp: seq<real>, fp: seq<real>, k: int)
    requires |xp| == |fp| > 0
    requires StrictlyIncreasing(xp)
    requires 0 <= k < |xp|
    ensures Interp(xp[k], xp, fp) == fp[k]
  {
    if k > 0 {
      assert xp[0] < xp[k];
      if k == 1 {
        assert Interp(xp[k], xp, fp) == Interp(xp[k], xp[1..], fp[1..]);
      }
      InterpAtSample(xp[1..], fp[1..], k - 1);
    }
  }

  /** Left of the first sample and right of the last one the curve is
      clamped to the end values. */
  lemma {:induction false} InterpClamps(x: real, xp: seq<real>, fp: seq<real>)
    requires |xp| == |fp| > 0
    requires StrictlyIncreasing(xp)
    ensures x <= xp[0] ==> Interp(x, xp, fp) == fp[0]
    ensures x >= xp[|xp| - 1] ==> Interp(x, xp, fp) == fp[|fp| - 1]
  {
    if x >= xp[|xp| - 1] && x > xp[0] && |xp| > 1 {
      assert x >= xp[1];
      InterpClamps(x, xp[1..], fp[1..]);
    }
  }

  /** A point of the segment from `a` to `b` lies between them. */
  lemma Between(a: real, b: real, t: real)
    requires 0.0 <= t <= 1.0
    ensures a <= b ==> a <= a + (b - a) * t <= b
    ensures b <= a ==> b <= a + (b - a) * t <= a
  {
    if a <= b {
      assert (b - a) * t <= (b - a) * 1.0;
    } else {
      assert (a - b) * t <= (a - b) * 1.0;
    }
  }

  /** Strictly between two neighbouring samples the curve is the straight
      line through them, so it lies between their values. */
  lemma {:induction false} InterpBetweenSamples(x: real, xp: seq<real>, fp: seq<real>, k: int)
    requires |xp| == |fp| > 0
    requires StrictlyIncreasing(xp)
    requires 0 <= k < |xp| - 1
    requires xp[k] < x < xp[k + 1]
    ensures Interp(x, xp, fp) == Lerp(xp[k], xp[k + 1], fp[k], fp[k + 1], x)
    ensures fp[k] <= fp[k + 1] ==> fp[k] <= Interp(x, xp, fp) <= fp[k + 1]
    ensures fp[k + 1] <= fp[k] ==> fp[k + 1] <= Interp(x, xp, fp) <= fp[k]
  {
    if k == 0 {
      LerpBetween(xp[0], xp[1], fp[0], fp[1], x);
    } else {
      assert xp[0] < xp[k] && xp[1] <= xp[k];
      InterpBetweenSamples(x, xp[1..], fp[1..], k - 1);
    }
  }

  /** The curve never leaves the range of the sample values. */
  lemma {:induction false} InterpWithinRange(x: real, xp: seq<real>, fp: seq<real>)
    requires |xp| == |fp| > 0
    requires StrictlyIncreasing(xp)
    ensures MinOf(fp) <= Interp(x, xp, fp) <= MaxOf(fp)
  {
    if x <= xp[0] || |xp| == 1 {
    } else if x < xp[1] {
      InterpBetweenSamples(x, xp, fp, 0);
    } else {
      InterpWithinRange(x, xp[1..], fp[1..]);
      assert MinOf(fp) <= MinOf(fp[1..]) by {
        assert MinOf(fp[1..]) in fp;
      }
      assert MaxOf(fp[1..]) <= MaxOf(fp) by {
        assert MaxOf(fp[1..]) in fp;
      }
    }
  }

  /** Every value shifted down by the attenuation `a`. */
  function Attenuate(fp: seq<real>, a: real): (r: seq<real>)
    ensures |r| == |fp|
    ensures forall i :: 0 <= i < |fp| ==> r[i] == fp[i] - a
  {
    seq(|fp|, i requires 0 <= i < |fp| => fp[i] - a)
  }

  /** Interpolating the attenuated curve is interpolating the curve and then
      attenuating. */
  lemma {:induction false} InterpAttenuate(x: real, xp: seq<real>, fp: seq<real>, a: real)
    requires |xp| == |fp| > 0
    requires StrictlyIncreasing(xp)
    ensures Interp(x, xp, Attenuate(fp, a)) == Interp(x, xp, fp) - a
  {
    var g := Attenuate(fp, a);
    if x <= xp[0] || |xp| == 1 {
    } else if x < xp[1] {
      LerpShift(xp[0], xp[1], fp[0], fp[1], x, a);
    } else {
      assert g[1..] == Attenuate(fp[1..], a);
      InterpAttenuate(x, xp[1..], fp[1..], a);
    }
  }

  /** One marker: kept only when its frequency is positive and lies in the
      window `[xMin, xMax]` the user typed (before any correction of the
      axis limits), with the attenuated MaxPeak curve's value there. */
  function Resolve(input: MarkerInput, parse: string -> Option<real>,
                   xMin: real, xMax: real,
                   freqs: seq<real>, maxPeak: seq<real>, attenuatorDb: real): (r: Option<Marker>)
    requires |freqs| == |maxPeak| > 0
    requires StrictlyIncreasing(freqs)
    ensures r.Some? <==> Accepts(ParseFrequency(input.text, parse), xMin, xMax)
    ensures r.Some? ==> r.value.frequency == ParseFrequency(input.text, parse)
    ensures r.Some? ==> r.value.color == input.color
    ensures r.Some? ==> r.value.amplitude == Interp(r.value.frequency, freqs, maxPeak) - attenuatorDb
    ensures r.Some? ==> MinOf(maxPeak) - attenuatorDb <= r.value.amplitude <= MaxOf(maxPeak) - attenuatorDb
    ensures r.Some? ==> forall k :: 0 <= k < |freqs| && freqs[k] == r.value.frequency ==>
              r.value.amplitude == maxPeak[k] - attenuatorDb
  {
    var f := ParseFrequency(input.text, parse);
    if Accepts(f, xMin, xMax) then
      var amplitude := Interp(f, freqs, Attenuate(maxPeak, attenuatorDb));
      InterpAttenuate(f, freqs, maxPeak, attenuatorDb);
      InterpWithinRange(f, freqs, maxPeak);
      forall k | 0 <= k < |freqs| && freqs[k] == f
        ensures amplitude == maxPeak[k] - attenuatorDb
      {
        InterpAtSample(freqs, maxPeak, k);
      }
      Some(Marker(f, amplitude, input.color))
    else None
  }

  /** Text the parser rejects never becomes a marker, whatever the window. */
  lemma UnparsableIsNoMarker(input: MarkerInput, parse: string -> Option<real>,
                             xMin: real, xMax: real,
                             freqs: seq<real>, maxPeak: seq<real>, attenuatorDb: real)
    requires |freqs| == |maxPeak| > 0
    requires StrictlyIncreasing(freqs)
    requires parse(ReplaceChar(input.text, ',', '.')).None?
    ensures Resolve(input, parse, xMin, xMax, freqs, maxPeak, attenuatorDb).None?
  {
  }

  /** The marker of one input, if kept, in front of `rest`. */
  function Prepend(one: Option<Marker>, rest: seq<Marker>): seq<Marker> {
    if one.Some? then [one.value] + rest else rest
  }

  /** Putting a marker in front commutes with appending after. */
  lemma PrependAppend(one: Option<Marker>, ra: seq<Marker>, rb: seq<Marker>)
    ensures Prepend(one, ra) + rb == Prepend(one, ra + rb)
  {
    if one.Some? {
      assert [one.value] + ra + rb == [one.value] + (ra + rb);
    }
  }

  /** The loop over the marker inputs, one input at a time. */
  function KeptMarkers(inputs: seq<MarkerInput>, parse: string -> Option<real>,
                       xMin: real, xMax: real,
                       freqs: seq<real>, maxPeak: seq<real>, attenuatorDb: real): seq<Marker>
    requires |freqs| == |maxPeak| > 0
    requires StrictlyIncreasing(freqs)
  {
    if |inputs| == 0 then []
    else Prepend(Resolve(inputs[0], parse, xMin, xMax, freqs, maxPeak, attenuatorDb),
                 KeptMarkers(inputs[1..], parse, xMin, xMax, freqs, maxPeak, attenuatorDb))
  }

  /** What the loop keeps: at most one marker per input, each the marker
      `Resolve` makes of some input, and every marker `Resolve` makes. */
  lemma {:induction false} KeptMarkersSound(inputs: seq<MarkerInput>, parse: string -> Option<real>,
                                            xMin: real, xMax: real,
                                            freqs: seq<real>, maxPeak: seq<real>, attenuatorDb: real)
    requires |freqs| == |maxPeak| > 0
    requires StrictlyIncreasing(freqs)
    ensures var r := KeptMarkers(inputs, parse, xMin, xMax, freqs, maxPeak, attenuatorDb);
            && |r| <= |inputs|
            && (forall m :: m in r ==>
                  exists i :: 0 <= i < |inputs| && Resolve(inputs[i], parse, xMin, xMax, freqs, maxPeak, attenuatorDb) == Some(m))
            && (forall i :: 0 <= i < |inputs| ==>
                  var one := Resolve(inputs[i], parse, xMin, xMax, freqs, maxPeak, attenuatorDb);
                  one.Some? ==> one.value in r)
  {
    if |inputs| > 0 {
      var rest := KeptMarkers(inputs[1..], parse, xMin, xMax, freqs, maxPeak, attenuatorDb);
      KeptMarkersSound(inputs[1..], parse, xMin, xMax, freqs, maxPeak, attenuatorDb);
      forall m | m in rest
        ensures exists i :: 0 <= i < |inputs| && Resolve(inputs[i], parse, xMin, xMax, freqs, maxPeak, attenuatorDb) == Some(m)
      {
        var j :| 0 <= j < |inputs[1..]| && Resolve(inputs[1..][j], parse, xMin, xMax, freqs, maxPeak, attenuatorDb) == Some(m);
        assert inputs[1..][j] == inputs[j + 1];
      }
      forall i | 1 <= i < |inputs|
        ensures var one := Resolve(inputs[i], parse, xMin, xMax, freqs, maxPeak, attenuatorDb);
                one.Some? ==> one.value in rest
      {
        assert inputs[1..][i - 1] == inputs[i];
      }
    }
  }

  /** The loop over `a + b` keeps the markers of `a`, then those of `b`. */
  lemma {:induction false} KeptMarkersAppend(a: seq<MarkerInput>, b: seq<MarkerInput>, parse: string -> Option<real>,
                                             xMin: real, xMax: real,
                                             freqs: seq<real>, maxPeak: seq<real>, attenuatorDb: real)
    requires |freqs| == |maxPeak| > 0
    requires StrictlyIncreasing(freqs)
    ensures KeptMarkers(a + b, parse, xMin, xMax, freqs, maxPeak, attenuatorDb)
            == KeptMarkers(a, parse, xMin, xMax, freqs, maxPeak, attenuatorDb)
               + KeptMarkers(b, parse, xMin, xMax, freqs, maxPeak, attenuatorDb)
  {
    if |a| == 0 {
      assert a + b == b;
    } else {
      assert (a + b)[1..] == a[1..] + b;
      assert (a + b)[0] == a[0];
      KeptMarkersAppend(a[1..], b, parse, xMin, xMax, freqs, maxPeak, attenuatorDb);
      PrependAppend(Resolve(a[0], parse, xMin, xMax, freqs, maxPeak, attenuatorDb),
                    KeptMarkers(a[1..], parse, xMin, xMax, freqs, maxPeak, attenuatorDb),
                    KeptMarkers(b, parse, xMin, xMax, freqs, maxPeak, attenuatorDb));
    }
  }

  /** All markers in input order, keeping only the accepted ones: every
      kept marker is what `Resolve` makes of one of the inputs, and every
      input `Resolve` keeps is among them. */
  function ResolveAll(inputs: seq<MarkerInput>, parse: string -> Option<real>,
                      xMin: real, xMax: real,
                      freqs: seq<real>, maxPeak: seq<real>, attenuatorDb: real): (r: seq<Marker>)
    requires |freqs| == |maxPeak| > 0
    requires StrictlyIncreasing(freqs)
    ensures |r| <= |inputs|
    ensures forall m :: m in r ==> Accepts(m.frequency, xMin, xMax)
    ensures forall m :: m in r ==>
              exists i :: 0 <= i < |inputs| && Resolve(inputs[i], parse, xMin, xMax, freqs, maxPeak, attenuatorDb) == Some(m)
    ensures forall i :: 0 <= i < |inputs| ==>
              var one := Resolve(inputs[i], parse, xMin, xMax, freqs, maxPeak, attenuatorDb);
              one.Some? ==> one.value in r
  {
    KeptMarkersSound(inputs, parse, xMin, xMax, freqs, maxPeak, attenuatorDb);
    KeptMarkers(inputs, parse, xMin, xMax, freqs, maxPeak, attenuatorDb)
  }

  /** The kept markers of `a + b` are those of `a` followed by those of
      `b`: `ResolveAll` keeps the order of its inputs. */
  lemma ResolveAllAppend(a: seq<MarkerInput>, b: seq<MarkerInput>, parse: string -> Option<real>,
                         xMin: real, xMax: real,
                         freqs: seq<real>, maxPeak: seq<real>, attenuatorDb: real)
    requires |freqs| == |maxPeak| > 0
    requires StrictlyIncreasing(freqs)
    ensures ResolveAll(a + b, parse, xMin, xMax, freqs, maxPeak, attenuatorDb)
            == ResolveAll(a, parse, xMin, xMax, freqs, maxPeak, attenuatorDb)
               + ResolveAll(b, parse, xMin, xMax, freqs, maxPeak, attenuatorDb)
  {
    KeptMarkersAppend(a, b, parse, xMin, xMax, freqs, maxPeak, attenuatorDb);
  }

  /** One input gives its resolved marker when `Resolve` keeps it, and
      nothing otherwise. */
  lemma ResolveAllSingle(input: MarkerInput, parse: string -> Option<real>,
                         xMin: real, xMax: real,
                         freqs: seq<real>, maxPeak: seq<real>, attenuatorDb: real)
    requires |freqs| == |maxPeak| > 0
    requires StrictlyIncreasing(freqs)
    ensures var one := Resolve(input, parse, xMin, xMax, freqs, maxPeak, attenuatorDb);
            ResolveAll([input], parse, xMin, xMax, freqs, maxPeak, attenuatorDb) == if one.Some? then [one.value] else []
  {
    assert [input][1..] == [];
    assert KeptMarkers([input], parse, xMin, xMax, freqs, maxPeak, attenuatorDb)
           == Prepend(Resolve(input, parse, xMin, xMax, freqs, maxPeak, attenuatorDb), []);
  }

  /** The legend entry of a marker: its frequency and its amplitude (rounded
      to one decimal), as the backend renders them in `freqText` and
      `amplitudeText`, each with decimal points turned into commas, then
      the unit. */
  function MarkerLabel(freqText: string, amplitudeText: string, unit: string): (r: string)
    ensures forall i :: 0 <= i < |r| - |unit| ==> r[i] != '.'
    ensures '.' in r ==> '.' in unit
    ensures |r| == |freqText| + |amplitudeText| + |unit| + 7
    ensures r[|r| - |unit|..] == unit
    ensures r[..|freqText|] == ReplaceChar(freqText, '.', ',')
    ensures r[|freqText|..|freqText| + 6] == " MHz, "
    ensures r[|freqText| + 6..|r| - |unit| - 1] == ReplaceChar(amplitudeText, '.', ',')
    ensures r[|r| - |unit| - 1] == ' '
  {
    var f := ReplaceChar(freqText, '.', ',');
    var a := ReplaceChar(amplitudeText, '.', ',');
    var r := f + " MHz, " + a + " " + unit;
    assert forall i :: 0 <= i < |r| - |unit| ==> r[i] != '.' by {
      assert '.' !in f && '.' !in a;
    }
    r
  }
}

=== FILE: options.dfy ===
/** Failure-carrying wrappers shared by the other modules. */
module Options {

  /** A value that may be absent. */
  datatype Option<+T> = None | Some(value: T)

  /** The outcome of an operation that can fail with an error of type E. */
  datatype Result<+T, +E> = Ok(value: T) | Err(error: E)
}

=== FILE: realseq.dfy ===
/** Ordering facts about sequences of reals: extremes, strict ascent, and
    Python's `sorted(set(xs))`. */
module RealSeq {

  /** Every element is smaller than every later one. */
  predicate StrictlyIncreasing(xs: seq<real>) {
    forall i, j :: 0 <= i < j < |xs| ==> xs[i] < xs[j]
  }

  /** The smallest element (pandas' `Series.min()` on a numeric column). */
  function MinOf(xs: seq<real>): (m: real)
    requires |xs| > 0
    ensures m in xs
    ensures forall i :: 0 <= i < |xs| ==> m <= xs[i]
  {
    if |xs| == 1 then xs[0]
    else
      var rest := MinOf(xs[1..]);
      if xs[0] <= rest then xs[0] else rest
  }

  /** The largest element (pandas' `Series.max()` on a numeric column). */
  function MaxOf(xs: seq<real>): (m: real)
    requires |xs| > 0
    ensures m in xs
    ensures forall i :: 0 <= i < |xs| ==> xs[i] <= m
  {
    if |xs| == 1 then xs[0]
    else
      var rest := MaxOf(xs[1..]);
      if xs[0] >= rest then xs[0] else rest
  }

  /** Adds `x` to a strictly increasing sequence, keeping it strictly
      increasing and without duplicates. */
  function Insert(sorted: seq<real>, x: real): (r: seq<real>)
    requires StrictlyIncreasing(sorted)
    ensures StrictlyIncreasing(r)
    ensures forall y :: y in r <==> y in sorted || y == x
  {
    if |sorted| == 0 then [x]
    else if x < sorted[0] then [x] + sorted
    else if x == sorted[0] then sorted
    else
      var tail := Insert(sorted[1..], x);
      assert forall y :: y in sorted <==> y == sorted[0] || y in sorted[1..];
      assert forall k :: 0 <= k < |tail| ==> tail[k] in tail && sorted[0] < tail[k];
      [sorted[0]] + tail
  }

  /** Python's `sorted(set(xs))`: the distinct elements of `xs` in
      ascending order. */
  function SortedUnique(xs: seq<real>): (r: seq<real>)
    ensures StrictlyIncreasing(r)
    ensures forall y :: y in r <==> y in xs
  {
    if |xs| == 0 then []
    else
      var init := xs[..|xs| - 1];
      assert xs == init + [xs[|xs| - 1]];
      Insert(SortedUnique(init), xs[|xs| - 1])
  }

  /** A strictly increasing sequence is determined by its set of elements:
      so `SortedUnique` is the only strictly increasing arrangement of the
      distinct values it is given. */
  lemma {:induction false} StrictlyIncreasingUnique(a: seq<real>, b: seq<real>)
    requires StrictlyIncreasing(a) && StrictlyIncreasing(b)
    requires forall y :: y in a <==> y in b
    ensures a == b
  {
    assert |a| > 0 ==> a[0] in a && a[0] in b;
    assert |b| > 0 ==> b[0] in b && b[0] in a;
    if |a| > 0 {
      // Each head is the least element of its sequence, so the heads agree.
      assert a[0] == b[0];
      forall y
        ensures y in a[1..] <==> y in b[1..]
      {
        if y in a[1..] {
          assert y in a && y != a[0];
          var k :| 0 <= k < |b| && b[k] == y;
          assert k != 0 && b[1..][k - 1] == y;
        }
        if y in b[1..] {
          assert y in b && y != b[0];
          var k :| 0 <= k < |a| && a[k] == y;
          assert k != 0 && a[1..][k - 1] == y;
        }
      }
      StrictlyIncreasingUnique(a[1..], b[1..]);
      assert a == [a[0]] + a[1..];
      assert b == [b[0]] + b[1..];
    }
  }
}

=== FILE: resultfile.dfy ===
/** Reading the measurement table out of a decoded `.result` export: the
    text after the `[TableValues]` marker, cut into lines and TAB fields,
    the fields assigned by position to seven fixed columns. */
module ResultFile {
  import opened Options
  import opened Text

  /** The marker that opens the table section. */
  const TableMarker: string := "[TableValues]"

  /** The number of fixed column names the reader assigns. */
  const ColumnCount: nat := 7

  /** One cell of the table: the text of a field, or nothing where a row
      was shorter than the widest row and was padded. Numeric coercion of
      whole columns is not part of this model. */
  datatype Cell = Field(text: string) | Missing

  /** One row, with its cells named after the seven fixed columns in order:
      Frequency_MHz, MaxPeak, Average, Height_cm, Polarization,
      Correction_dB, Comment. */
  datatype Row = Row(
    frequencyMHz: Cell,
    maxPeak: Cell,
    average: Cell,
    heightCm: Cell,
    polarization: Cell,
    correctionDb: Cell,
    comment: Cell)

  /** Why a text yields no table: no marker at all (the user-visible error
      branch), or rows whose widest one does not have exactly seven fields,
      so that the seven column names cannot be assigned. */
  datatype ParseError = SectionNotFound | ColumnCountMismatch(columns: nat)

  /** The cells of a row in column order. */
  function Cells(row: Row): (r: seq<Cell>)
    ensures |r| == ColumnCount
  {
    [row.frequencyMHz, row.maxPeak, row.average, row.heightCm,
     row.polarization, row.correctionDb, row.comment]
  }

  /** The raw section: the text after the first marker, up to the next
      marker if there is one (Python's `content.split(marker)[1]`). */
  function TableSection(content: string): (r: Option<string>)
    ensures r.None? <==> !Contains(content, TableMarker)
    ensures r.Some? ==>
              var start := IndexOf(content, TableMarker).value + |TableMarker|;
              && start <= |content|
              && StartsWith(content[start..], r.value)
              && !Contains(r.value, TableMarker)
              && (r.value == content[start..] || OccursAt(content[start..], TableMarker, |r.value|))
  {
    match IndexOf(content, TableMarker)
    case None => None
    case Some(i) =>
      var rest := content[i + |TableMarker|..];
      match IndexOf(rest, TableMarker)
      case None => Some(rest)
      case Some(j) =>
        var segment := rest[..j];
        assert !Contains(segment, TableMarker) by {
          forall k: nat | k <= |segment| && OccursAt(segment, TableMarker, k)
            ensures false
          {
            OccursInPrefix(rest, TableMarker, j, k);
          }
        }
        Some(segment)
  }

  /** The data lines: the trimmed section split into lines. Put back
      together with their terminators they give the trimmed section, and
      the first one is never empty, since trimming removed the leading
      breaks. */
  function TableLines(section: string): (r: seq<string>)
    ensures forall i, j :: 0 <= i < |r| && 0 <= j < |r[i]| ==> !IsLineBreak(r[i][j])
    ensures |r| == 0 <==> Strip(section) == ""
    ensures |r| == |Terminators(Strip(section))|
    ensures JoinLines(r, Terminators(Strip(section))) == Strip(section)
    ensures |r| > 0 ==> r[0] != ""
  {
    var t := Strip(section);
    SplitLinesRejoin(t);
    FirstLineNotEmpty(t);
    SplitLines(t)
  }

  /** The widest field count of all rows, 0 when there are none (the
      number of columns pandas gives a frame built from ragged rows). */
  function Width(rows: seq<seq<string>>): (w: nat)
    ensures forall i :: 0 <= i < |rows| ==> |rows[i]| <= w
    ensures |rows| == 0 ==> w == 0
    ensures |rows| > 0 ==> exists i :: 0 <= i < |rows| && |rows[i]| == w
  {
    if |rows| == 0 then 0
    else
      var rest := Width(rows[1..]);
      if |rows[0]| >= rest then |rows[0]| else rest
  }

  /** A row from its fields, padded with `Missing` after the last field. */
  function ToRow(fields: seq<string>): (r: Row)
    requires |fields| <= ColumnCount
    ensures forall k :: 0 <= k < ColumnCount ==>
              Cells(r)[k] == if k < |fields| then Field(fields[k]) else Missing
  {
    var c := (k: nat) => if k < |fields| then Field(fields[k]) else Missing;
    Row(c(0), c(1), c(2), c(3), c(4), c(5), c(6))
  }

  /** The texts of the leading present cells of a row. */
  function PresentFields(cells: seq<Cell>): seq<string> {
    if |cells| == 0 || cells[0].Missing? then []
    else [cells[0].text] + PresentFields(cells[1..])
  }

  /** Padding a row and reading its present cells back gives its fields. */
  lemma {:induction false} PresentFieldsOfPadded(fields: seq<string>, cells: seq<Cell>)
    requires |fields| <= |cells|
    requires forall k :: 0 <= k < |cells| ==>
               cells[k] == if k < |fields| then Field(fields[k]) else Missing
    ensures PresentFields(cells) == fields
  {
    if |fields| > 0 {
      PresentFieldsOfPadded(fields[1..], cells[1..]);
    }
  }

  /** The TAB fields of every line. */
  function FieldsOf(lines: seq<string>): (r: seq<seq<string>>)
    ensures |r| == |lines|
    ensures forall i :: 0 <= i < |lines| ==> r[i] == Split(lines[i], '\t')
  {
    seq(|lines|, i requires 0 <= i < |lines| => Split(lines[i], '\t'))
  }

  /** `rows` are the data lines `lines`, one row per line: each line has at
      most seven TAB fields, its row holds them in column order with
      `Missing` after the last one, and re-joining the present cells with
      TAB gives the line back. */
  predicate RowsOfLines(rows: seq<Row>, lines: seq<string>) {
    && |rows| == |lines| > 0
    && (forall i :: 0 <= i < |lines| ==> Join(PresentFields(Cells(rows[i])), '\t') == lines[i])
    && forall i, k :: 0 <= i < |lines| && 0 <= k < ColumnCount ==>
         var fields := Split(lines[i], '\t');
         |fields| <= ColumnCount
         && Cells(rows[i])[k] == if k < |fields| then Field(fields[k]) else Missing
  }

  /** No data line has more than `width` TAB fields. */
  predicate FieldsAtMost(lines: seq<string>, width: nat) {
    forall i :: 0 <= i < |lines| ==> |Split(lines[i], '\t')| <= width
  }

  /** The rows of the given data lines: every line split on TAB, padded to
      the widest row, and assigned to the seven columns; an error when the
      widest row does not have exactly seven fields. */
  function BuildRows(lines: seq<string>): (r: Result<seq<Row>, ParseError>)
    ensures r.Err? <==> Width(FieldsOf(lines)) != ColumnCount
    ensures r.Ok? ==> RowsOfLines(r.value, lines)
    ensures r.Err? ==> r == Err(ColumnCountMismatch(Width(FieldsOf(lines))))
    ensures r.Err? ==> FieldsAtMost(lines, r.error.columns)
  {
    var fields := FieldsOf(lines);
    var w := Width(fields);
    if w != ColumnCount then Err(ColumnCountMismatch(w))
    else
      var rows := seq(|fields|, i requires 0 <= i < |fields| => ToRow(fields[i]));
      forall i | 0 <= i < |rows|
        ensures Join(PresentFields(Cells(rows[i])), '\t') == lines[i]
      {
        PresentFieldsOfPadded(fields[i], Cells(rows[i]));
        JoinSplit(lines[i], '\t');
      }
      Ok(rows)
  }

  /** The table of a decoded `.result` text: the error branch when the
      marker is missing, else the rows of the lines of the trimmed
      section. */
  function ParseTable(content: string): (r: Result<seq<Row>, ParseError>)
    ensures r == Err(SectionNotFound) <==> !Contains(content, TableMarker)
    ensures r.Ok? ==>
              TableSection(content).Some? && RowsOfLines(r.value, TableLines(TableSection(content).value))
    ensures r.Ok? <==>
              TableSection(content).Some? && Width(FieldsOf(TableLines(TableSection(content).value))) == ColumnCount
    ensures r.Err? && r.error.ColumnCountMismatch? ==>
              && TableSection(content).Some?
              && r.error.columns == Width(FieldsOf(TableLines(TableSection(content).value)))
              && r.error.columns != ColumnCount
              && FieldsAtMost(TableLines(TableSection(content).value), r.error.columns)
  {
    match TableSection(content)
    case None => Err(SectionNotFound)
    case Some(section) => BuildRows(TableLines(section))
  }

  /** A line of two TAB-free fields splits back into exactly those two. */
  lemma TwoFieldLine(a: string, b: string)
    requires '\t' !in a && '\t' !in b
    ensures Split(a + "\t" + b, '\t') == [a, b]
  {
    assert Join([a, b], '\t') == a + "\t" + b;
    SplitJoin([a, b], '\t');
  }

  /** A table whose rows all have two fields is rejected with width 2: the
      seven column names are not assigned to a narrower frame, and no row
      is padded out to seven cells. */
  lemma NarrowTableIsRejected()
    ensures BuildRows(["100\t-50", "200\t-40"]) == Err(ColumnCountMismatch(2))
  {
    TwoFieldLine("100", "-50");
    TwoFieldLine("200", "-40");
    assert "100" + "\t" + "-50" == "100\t-50";
    assert "200" + "\t" + "-40" == "200\t-40";
    var fields := FieldsOf(["100\t-50", "200\t-40"]);
    assert fields == [["100", "-50"], ["200", "-40"]];
    assert Width(fields) == 2;
  }
}

=== FILE: subbands.dfy ===
/** The static catalog of authorised sub-bands and the filter that picks
    the ones overlapping the visible frequency window. */
module SubBands {

  /** The three categories of the catalog, in the catalog's order. */
  datatype Category = CollectiveServices | Drones | WiFi

  /** A frequency band `[startMHz, endMHz]`. */
  datatype Band = Band(startMHz: real, endMHz: real)

  /** A band to shade, with the category that selects its colour. */
  datatype Overlay = Overlay(category: Category, band: Band)

  /** An upper-case hexadecimal digit. */
  predicate IsHexDigit(c: char) {
    '0' <= c <= '9' || 'A' <= c <= 'F'
  }

  /** The shading colour of a category, as `#RRGGBB`. */
  function CategoryColor(c: Category): (color: string)
    ensures |color| == 7 && color[0] == '#'
    ensures forall i :: 1 <= i < 7 ==> IsHexDigit(color[i])
  {
    match c
    case CollectiveServices => "#FFCDD2"
    case Drones => "#C8E6C9"
    case WiFi => "#BBDEFB"
  }

  /** The catalog: for each category in order, its bands in order. */
  function Catalog(): (c: seq<(Category, seq<Band>)>)
    ensures |c| == 3
    ensures c[0].0 == CollectiveServices && c[1].0 == Drones && c[2].0 == WiFi
    ensures forall i, j :: 0 <= i < |c| && 0 <= j < |c[i].1| ==> 0.0 < c[i].1[j].startMHz < c[i].1[j].endMHz
  {
    [ (CollectiveServices,
        [Band(461.0, 468.0), Band(864.0, 894.0), Band(758.0, 803.0), Band(943.5, 960.0),
         Band(1427.0, 1517.0), Band(1805.0, 1880.0), Band(1890.0, 1910.0), Band(2110.0, 2170.0),
         Band(2300.0, 2390.0), Band(2570.0, 2620.0), Band(2620.0, 2690.0), Band(3300.0, 3700.0),
         Band(24250.0, 27500.0)]),
      (Drones,
        [Band(433.0, 435.0), Band(902.0, 928.0), Band(1166.0, 1186.0), Band(1217.0, 1237.0),
         Band(1565.0, 1585.0), Band(2400.0, 2483.5), Band(5150.0, 5850.0)]),
      (WiFi,
        [Band(902.0, 928.0), Band(2400.0, 2483.5), Band(5150.0, 5850.0), Band(5925.0, 7125.0)]) ]
  }

  /** `o` is one of the catalog's bands under its own category. */
  ghost predicate InCatalog(o: Overlay, catalog: seq<(Category, seq<Band>)>) {
    exists i :: 0 <= i < |catalog| && o.category == catalog[i].0 && o.band in catalog[i].1
  }

  /** The overlays of a catalog in iteration order: category by category,
      band by band. */
  function Flatten(catalog: seq<(Category, seq<Band>)>): (r: seq<Overlay>)
    ensures forall o :: o in r <==> InCatalog(o, catalog)
  {
    if |catalog| == 0 then []
    else
      var (c, bands) := catalog[0];
      var head := seq(|bands|, j requires 0 <= j < |bands| => Overlay(c, bands[j]));
      var rest := Flatten(catalog[1..]);
      forall o
        ensures o in head + rest <==> InCatalog(o, catalog)
      {
        if o in head {
          var j :| 0 <= j < |bands| && head[j] == o;
          assert o.band in catalog[0].1;
        }
        if InCatalog(o, catalog[1..]) {
          var i :| 0 <= i < |catalog[1..]| && o.category == catalog[1..][i].0 && o.band in catalog[1..][i].1;
          assert catalog[i + 1] == catalog[1..][i];
        }
        if InCatalog(o, catalog) {
          var i :| 0 <= i < |catalog| && o.category == catalog[i].0 && o.band in catalog[i].1;
          if i == 0 {
            var j :| 0 <= j < |bands| && bands[j] == o.band;
            assert head[j] == o;
          } else {
            assert catalog[1..][i - 1] == catalog[i];
          }
        }
      }
      head + rest
  }

  /** The overlays of one category: its bands in order, each under that
      category. */
  lemma FlattenSingle(c: Category, bands: seq<Band>)
    ensures |Flatten([(c, bands)])| == |bands|
    ensures forall j :: 0 <= j < |bands| ==> Flatten([(c, bands)])[j] == Overlay(c, bands[j])
  {
    assert [(c, bands)][1..] == [];
  }

  /** Flattening two catalogs one after the other gives the overlays of the
      first followed by those of the second, so `Flatten` walks the catalog
      category by category in order. */
  lemma {:induction false} FlattenAppend(a: seq<(Category, seq<Band>)>, b: seq<(Category, seq<Band>)>)
    ensures Flatten(a + b) == Flatten(a) + Flatten(b)
  {
    if |a| == 0 {
      assert a + b == b;
    } else {
      assert (a + b)[1..] == a[1..] + b;
      assert (a + b)[0] == a[0];
      FlattenAppend(a[1..], b);
    }
  }

  /** `x` lies in the band `b`. */
  predicate InBand(x: real, b: Band) {
    b.startMHz <= x <= b.endMHz
  }

  /** `x` lies in the window `[xMin, xMax]`. */
  predicate InWindow(x: real, xMin: real, xMax: real) {
    xMin <= x <= xMax
  }

  /** A band is drawn unless it ends below the window or starts above it:
      for a proper band and window, exactly when they share a frequency. */
  predicate Visible(b: Band, xMin: real, xMax: real): (v: bool)
    ensures v <==> b.startMHz <= xMax && xMin <= b.endMHz
    ensures b.startMHz <= b.endMHz && xMin <= xMax ==>
              (v <==> exists x :: InBand(x, b) && InWindow(x, xMin, xMax))
  {
    var w := if b.startMHz <= xMin then xMin else b.startMHz;
    assert b.startMHz <= xMax && xMin <= b.endMHz && b.startMHz <= b.endMHz && xMin <= xMax ==>
             InBand(w, b) && InWindow(w, xMin, xMax);
    !(b.endMHz < xMin || b.startMHz > xMax)
  }

  /** The overlays that are drawn, unclipped and in their original order. */
  function VisibleOverlays(overlays: seq<Overlay>, xMin: real, xMax: real): (r: seq<Overlay>)
    ensures forall o :: o in r <==> o in overlays && Visible(o.band, xMin, xMax)
    ensures |r| <= |overlays|
  {
    if |overlays| == 0 then []
    else
      var rest := VisibleOverlays(overlays[1..], xMin, xMax);
      assert forall o :: o in overlays <==> o == overlays[0] || o in overlays[1..];
      if Visible(overlays[0].band, xMin, xMax) then [overlays[0]] + rest else rest
  }

  /** `a` is `b` with some elements left out, the rest in the same order. */
  predicate IsSubsequence(a: seq<Overlay>, b: seq<Overlay>)
    decreases |b|
  {
    if |a| == 0 then true
    else if |b| == 0 then false
    else if a[0] == b[0] then IsSubsequence(a[1..], b[1..])
    else IsSubsequence(a, b[1..])
  }

  /** The drawn overlays keep the catalog's order. */
  lemma {:induction false} VisibleOverlaysKeepOrder(overlays: seq<Overlay>, xMin: real, xMax: real)
    ensures IsSubsequence(VisibleOverlays(overlays, xMin, xMax), overlays)
  {
    if |overlays| > 0 {
      VisibleOverlaysKeepOrder(overlays[1..], xMin, xMax);
      var rest := VisibleOverlays(overlays[1..], xMin, xMax);
      if !Visible(overlays[0].band, xMin, xMax) && |rest| > 0 {
        SubsequenceSkipsHead(rest, overlays);
      }
    }
  }

  /** A subsequence of the tail is a subsequence of the whole. */
  lemma {:induction false} SubsequenceSkipsHead(a: seq<Overlay>, b: seq<Overlay>)
    requires |b| > 0
    requires IsSubsequence(a, b[1..])
    ensures IsSubsequence(a, b)
    decreases |b|, 1
  {
    if |a| > 0 && a[0] == b[0] {
      // Matching the head of `a` against `b[0]` needs `a[1..]` inside
      // `b[1..]`, which follows from `a` being inside `b[1..]`.
      SubsequenceDropHead(a, b[1..]);
    }
  }

  /** Dropping the first element of a subsequence keeps it a subsequence. */
  lemma {:induction false} SubsequenceDropHead(a: seq<Overlay>, b: seq<Overlay>)
    requires |a| > 0
    requires IsSubsequence(a, b)
    ensures IsSubsequence(a[1..], b)
    decreases |b|, 2
  {
    if a[0] == b[0] {
      if |a| > 1 {
        SubsequenceSkipsHead(a[1..], b);
      }
    } else {
      SubsequenceDropHead(a, b[1..]);
      if |a| > 1 {
        SubsequenceSkipsHead(a[1..], b);
      }
    }
  }

  /** The sub-band overlays drawn for the window `[xMin, xMax]`. */
  function DrawnSubBands(xMin: real, xMax: real): (r: seq<Overlay>)
    ensures forall o :: o in r <==> InCatalog(o, Catalog()) && Visible(o.band, xMin, xMax)
    ensures forall o :: o in r ==> o.band.startMHz < o.band.endMHz
    ensures IsSubsequence(r, Flatten(Catalog()))
  {
    VisibleOverlaysKeepOrder(Flatten(Catalog()), xMin, xMax);
    VisibleOverlays(Flatten(Catalog()), xMin, xMax)
  }

  /** A band that covers the whole window is always drawn; one that ends
      below it or starts above it never is. */
  lemma VisibilityCases(b: Band, xMin: real, xMax: real)
    ensures b.startMHz <= xMin && xMax <= b.endMHz && xMin <= xMax ==> Visible(b, xMin, xMax)
    ensures b.endMHz < xMin || b.startMHz > xMax ==> !Visible(b, xMin, xMax)
  {
  }
}

=== FILE: text.dfy ===
/** The handful of Python `str` operations the reader relies on, over
    strings of Unicode scalar values. */
module Text {
  import opened Options

  // ---------------------------------------------------------------------
  // Character classes
  // ---------------------------------------------------------------------

  /** The characters Python's `str.isspace()` accepts, which `str.strip()`
      removes from both ends of a string. */
  predicate IsSpace(c: char) {
    || c == ' ' || c == '\t' || c == '\n' || c == '\r'
    || ('\U{000B}' <= c <= '\U{000C}')
    || ('\U{001C}' <= c <= '\U{001F}')
    || c == '\U{0085}' || c == '\U{00A0}' || c == '\U{1680}'
    || ('\U{2000}' <= c <= '\U{200A}')
    || c == '\U{2028}' || c == '\U{2029}' || c == '\U{202F}'
    || c == '\U{205F}' || c == '\U{3000}'
  }

  /** The characters at which Python's `str.splitlines()` ends a line
      (a `\r` directly followed by `\n` ends one line, not two). */
  predicate IsLineBreak(c: char) {
    || c == '\n' || c == '\r'
    || ('\U{000B}' <= c <= '\U{000C}')
    || ('\U{001C}' <= c <= '\U{001E}')
    || c == '\U{0085}' || c == '\U{2028}' || c == '\U{2029}'
  }

  /** Every line break is white space, so `strip()` removes line breaks at
      both ends of the text it trims. */
  lemma LineBreakIsSpace(c: char)
    ensures IsLineBreak(c) ==> IsSpace(c)
  {
  }

  // ---------------------------------------------------------------------
  // Substrings
  // ---------------------------------------------------------------------

  /** `pat` occurs in `s` starting at index `i`. */
  predicate OccursAt(s: string, pat: string, i: nat) {
    i + |pat| <= |s| && s[i..i + |pat|] == pat
  }

  /** Python's `pat in s`. */
  predicate Contains(s: string, pat: string) {
    exists i: nat :: i <= |s| && OccursAt(s, pat, i)
  }

  /** Python's `s.startswith(p)`. */
  predicate StartsWith(s: string, p: string) {
    |p| <= |s| && s[..|p|] == p
  }

  /** The first index at or after `from` where `pat` occurs in `s`. */
  function IndexFrom(s: string, pat: string, from: nat): (r: Option<nat>)
    requires from <= |s|
    ensures r.None? ==> forall i: nat :: from <= i ==> !OccursAt(s, pat, i)
    ensures r.Some? ==> from <= r.value && OccursAt(s, pat, r.value)
    ensures r.Some? ==> forall i: nat :: from <= i < r.value ==> !OccursAt(s, pat, i)
    decreases |s| - from
  {
    if OccursAt(s, pat, from) then Some(from)
    else if from == |s| then None
    else IndexFrom(s, pat, from + 1)
  }

  /** The first index where `pat` occurs in `s` (Python's `s.find(pat)`,
      with `None` for -1). */
  function IndexOf(s: string, pat: string): (r: Option<nat>)
    ensures r.None? <==> !Contains(s, pat)
    ensures r.Some? ==> OccursAt(s, pat, r.value)
    ensures r.Some? ==> forall i: nat :: i < r.value ==> !OccursAt(s, pat, i)
  {
    IndexFrom(s, pat, 0)
  }

  /** An occurrence inside a prefix of `s` is an occurrence in `s`. */
  lemma OccursInPrefix(s: string, pat: string, n: nat, i: nat)
    requires n <= |s|
    requires OccursAt(s[..n], pat, i)
    ensures OccursAt(s, pat, i)
  {
    assert s[..n][i..i + |pat|] == s[i..i + |pat|];
  }

  // ---------------------------------------------------------------------
  // Trimming
  // ---------------------------------------------------------------------

  /** The length of the longest all-space prefix of `s`. */
  function LeadingSpace(s: string): (k: nat)
    ensures k <= |s|
    ensures forall i :: 0 <= i < k ==> IsSpace(s[i])
    ensures k < |s| ==> !IsSpace(s[k])
  {
    if |s| == 0 || !IsSpace(s[0]) then 0 else 1 + LeadingSpace(s[1..])
  }

  /** The length of the longest all-space suffix of `s`. */
  function TrailingSpace(s: string): (k: nat)
    ensures k <= |s|
    ensures forall i :: |s| - k <= i < |s| ==> IsSpace(s[i])
    ensures k < |s| ==> !IsSpace(s[|s| - k - 1])
  {
    if |s| == 0 || !IsSpace(s[|s| - 1]) then 0 else 1 + TrailingSpace(s[..|s| - 1])
  }

  /** Python's `s.strip()`: the infix of `s` left after removing white space
      at both ends. */
  function Strip(s: string): (r: string)
    ensures exists a: nat, b: nat :: a <= b <= |s| && r == s[a..b]
              && (forall i :: 0 <= i < a ==> IsSpace(s[i]))
              && (forall i :: b <= i < |s| ==> IsSpace(s[i]))
    ensures |r| > 0 ==> !IsSpace(r[0]) && !IsSpace(r[|r| - 1])
  {
    var a := LeadingSpace(s);
    if a == |s| then
      assert s[a..a] == [];
      []
    else
      var b := |s| - TrailingSpace(s);
      assert !IsSpace(s[a]);
      assert a < b;
      s[a..b]
  }

  // ---------------------------------------------------------------------
  // Splitting on a separator and joining back
  // ---------------------------------------------------------------------

  /** Python's `s.split(sep)` for a one-character separator: the pieces
      between consecutive occurrences of `sep`, empty ones included. */
  function Split(s: string, sep: char): (r: seq<string>)
    ensures |r| >= 1
    ensures forall i :: 0 <= i < |r| ==> sep !in r[i]
  {
    if |s| == 0 then [""]
    else if s[0] == sep then [""] + Split(s[1..], sep)
    else
      var rest := Split(s[1..], sep);
      [[s[0]] + rest[0]] + rest[1..]
  }

  /** Python's `sep.join(parts)`. */
  function Join(parts: seq<string>, sep: char): string {
    if |parts| == 0 then ""
    else if |parts| == 1 then parts[0]
    else parts[0] + [sep] + Join(parts[1..], sep)
  }

  /** Joining the pieces of a split gives back the original string. */
  lemma {:induction false} JoinSplit(s: string, sep: char)
    ensures Join(Split(s, sep), sep) == s
  {
    if |s| == 0 {
    } else if s[0] == sep {
      JoinSplit(s[1..], sep);
      assert Split(s, sep) == [""] + Split(s[1..], sep);
      assert s == [sep] + s[1..];
    } else {
      var rest := Split(s[1..], sep);
      JoinSplit(s[1..], sep);
      if |rest| == 1 {
        assert Join(rest, sep) == rest[0];
        assert s == [s[0]] + s[1..];
      } else {
        assert Join(rest, sep) == rest[0] + [sep] + Join(rest[1..], sep);
        assert s == [s[0]] + s[1..];
      }
    }
  }

  /** Splitting a string that starts with a separator-free piece `a`
      followed by a separator yields `a` and then the pieces of the rest. */
  lemma {:induction false} SplitAfterPiece(a: string, b: string, sep: char)
    requires sep !in a
    ensures Split(a + [sep] + b, sep) == [a] + Split(b, sep)
  {
    if |a| == 0 {
      assert a + [sep] + b == [sep] + b;
      assert ([sep] + b)[1..] == b;
    } else {
      var s := a + [sep] + b;
      assert s[0] == a[0];
      assert s[1..] == a[1..] + [sep] + b;
      SplitAfterPiece(a[1..], b, sep);
      assert [a[0]] + a[1..] == a;
    }
  }

  /** A string without the separator splits into itself alone. */
  lemma {:induction false} SplitNoSeparator(a: string, sep: char)
    requires sep !in a
    ensures Split(a, sep) == [a]
  {
    if |a| > 0 {
      SplitNoSeparator(a[1..], sep);
      assert [a[0]] + a[1..] == a;
    }
  }

  /** Splitting a join of separator-free pieces gives back the pieces. */
  lemma {:induction false} SplitJoin(parts: seq<string>, sep: char)
    requires |parts| >= 1
    requires forall i :: 0 <= i < |parts| ==> sep !in parts[i]
    ensures Split(Join(parts, sep), sep) == parts
  {
    if |parts| == 1 {
      SplitNoSeparator(parts[0], sep);
    } else {
      SplitJoin(parts[1..], sep);
      SplitAfterPiece(parts[0], Join(parts[1..], sep), sep);
      assert [parts[0]] + parts[1..] == parts;
    }
  }

  // ---------------------------------------------------------------------
  // Lines
  // ---------------------------------------------------------------------

  /** The index of the first line break in `s`, or `|s|` when there is none. */
  function BreakIndex(s: string): (k: nat)
    ensures k <= |s|
    ensures forall i :: 0 <= i < k ==> !IsLineBreak(s[i])
    ensures k < |s| ==> IsLineBreak(s[k])
  {
    if |s| == 0 || IsLineBreak(s[0]) then 0 else 1 + BreakIndex(s[1..])
  }

  /** Where the next line starts after a break at `k`: a CR directly
      followed by LF ends the line as one terminator. */
  function NextStart(s: string, k: nat): (next: nat)
    requires k < |s|
    ensures k < next <= |s|
  {
    if s[k] == '\r' && k + 1 < |s| && s[k + 1] == '\n' then k + 2 else k + 1
  }

  /** Python's `s.splitlines()`: the lines of `s` without their terminators;
      a final terminator does not start an extra empty line. */
  function SplitLines(s: string): (r: seq<string>)
    ensures |s| == 0 <==> |r| == 0
    ensures forall i, j :: 0 <= i < |r| && 0 <= j < |r[i]| ==> !IsLineBreak(r[i][j])
    decreases |s|
  {
    if |s| == 0 then []
    else
      var k := BreakIndex(s);
      if k == |s| then [s]
      else
        var next := NextStart(s, k);
        [s[..k]] + SplitLines(s[next..])
  }

  /** On text whose only line break is `\n` and which does not end in one,
      `splitlines()` agrees with `split("\n")`. */
  lemma {:induction false} SplitLinesOnNewlines(s: string)
    requires |s| > 0 && s[|s| - 1] != '\n'
    requires forall i :: 0 <= i < |s| && IsLineBreak(s[i]) ==> s[i] == '\n'
    ensures SplitLines(s) == Split(s, '\n')
    decreases |s|
  {
    var k := BreakIndex(s);
    if k == |s| {
      assert '\n' !in s;
      SplitNoSeparator(s, '\n');
    } else {
      assert s[k] == '\n';
      var a, b := s[..k], s[k + 1..];
      assert '\n' !in a;
      assert s == a + ['\n'] + b;
      SplitAfterPiece(a, b, '\n');
      assert |b| > 0;
      SplitLinesOnNewlines(b);
    }
  }

  /** A line terminator `splitlines()` recognises: CR LF, or one break
      character. */
  predicate IsTerminator(t: string) {
    t == "\r\n" || (|t| == 1 && IsLineBreak(t[0]))
  }

  /** The terminator that ends each line of `SplitLines(s)`; the last line
      has the empty terminator when `s` does not end in a break. */
  function Terminators(s: string): (ts: seq<string>)
    ensures |ts| == |SplitLines(s)|
    ensures forall i :: 0 <= i < |ts| - 1 ==> IsTerminator(ts[i])
    ensures |ts| > 0 ==> IsTerminator(ts[|ts| - 1]) || (ts[|ts| - 1] == "" && SplitLines(s)[|ts| - 1] != "")
    decreases |s|
  {
    if |s| == 0 then []
    else
      var k := BreakIndex(s);
      if k == |s| then [""]
      else
        var next := NextStart(s, k);
        var t := s[k..next];
        assert IsTerminator(t) by {
          if next == k + 2 {
            assert |t| == 2 && t[0] == s[k] && t[1] == s[k + 1];
            assert t == "\r\n";
          } else {
            assert |t| == 1 && t[0] == s[k];
          }
        }
        var rest := Terminators(s[next..]);
        assert SplitLines(s) == [s[..k]] + SplitLines(s[next..]);
        [t] + rest
  }

  /** Each line followed by its terminator, all concatenated. */
  function JoinLines(lines: seq<string>, ts: seq<string>): string
    requires |lines| == |ts|
  {
    if |lines| == 0 then "" else lines[0] + ts[0] + JoinLines(lines[1..], ts[1..])
  }

  /** The lines with their terminators put back give the text again: no
      character is lost or added by `splitlines()` apart from the breaks. */
  lemma {:induction false} SplitLinesRejoin(s: string)
    ensures JoinLines(SplitLines(s), Terminators(s)) == s
    decreases |s|
  {
    if |s| > 0 {
      var k := BreakIndex(s);
      if k == |s| {
        assert SplitLines(s) == [s] && Terminators(s) == [""];
        JoinLinesCons(s, "", [], []);
      } else {
        SplitLinesRejoin(s[NextStart(s, k)..]);
        RejoinStep(s);
      }
    }
  }

  /** One step of `SplitLinesRejoin`: the first line and its terminator,
      then the rest of the text rejoined. */
  lemma RejoinStep(s: string)
    requires BreakIndex(s) < |s|
    requires var next := NextStart(s, BreakIndex(s));
             JoinLines(SplitLines(s[next..]), Terminators(s[next..])) == s[next..]
    ensures JoinLines(SplitLines(s), Terminators(s)) == s
  {
    var k := BreakIndex(s);
    var next := NextStart(s, k);
    var rest := s[next..];
    SplitLinesUnfold(s);
    TerminatorsUnfold(s);
    JoinLinesCons(s[..k], s[k..next], SplitLines(rest), Terminators(rest));
    SliceThree(s, k, next);
  }

  /** A text is its three consecutive slices put together. */
  lemma SliceThree(s: string, k: nat, next: nat)
    requires k <= next <= |s|
    ensures s[..k] + s[k..next] + s[next..] == s
  {
    assert s[..k] + s[k..next] == s[..next];
  }

  /** `SplitLines` of a text with a break: the line before the break, then
      the lines after its terminator. */
  lemma SplitLinesUnfold(s: string)
    requires BreakIndex(s) < |s|
    ensures SplitLines(s) == [s[..BreakIndex(s)]] + SplitLines(s[NextStart(s, BreakIndex(s))..])
  {
  }

  /** `Terminators` of a text with a break: the first terminator, then those
      after it. */
  lemma TerminatorsUnfold(s: string)
    requires BreakIndex(s) < |s|
    ensures Terminators(s)
            == [s[BreakIndex(s)..NextStart(s, BreakIndex(s))]] + Terminators(s[NextStart(s, BreakIndex(s))..])
  {
  }

  /** A text that starts with a character other than white space has a
      non-empty first line. */
  lemma FirstLineNotEmpty(t: string)
    ensures |t| > 0 && !IsSpace(t[0]) ==> SplitLines(t)[0] != ""
  {
    if |t| > 0 {
      LineBreakIsSpace(t[0]);
      if BreakIndex(t) < |t| {
        SplitLinesUnfold(t);
      }
    }
  }

  /** `JoinLines` of a first line and its terminator, then the rest. */
  lemma JoinLinesCons(line: string, t: string, lines: seq<string>, ts: seq<string>)
    requires |lines| == |ts|
    ensures JoinLines([line] + lines, [t] + ts) == line + t + JoinLines(lines, ts)
  {
    assert ([line] + lines)[1..] == lines;
    assert ([t] + ts)[1..] == ts;
  }

  /** The first break of a text that starts with a break-free `a` followed
      by a break is right after `a`. */
  lemma FirstBreakAfter(a: string, rest: string)
    requires forall i :: 0 <= i < |a| ==> !IsLineBreak(a[i])
    requires |rest| > 0 && IsLineBreak(rest[0])
    ensures BreakIndex(a + rest) == |a|
  {
    var s := a + rest;
    assert forall i :: 0 <= i < |a| ==> s[i] == a[i];
    assert s[|a|] == rest[0];
  }

  /** A non-empty text without breaks is one line. */
  lemma SplitLinesOneLine(a: string)
    requires |a| > 0
    requires forall i :: 0 <= i < |a| ==> !IsLineBreak(a[i])
    ensures SplitLines(a) == [a]
  {
    assert BreakIndex(a) == |a|;
  }

  /** A break-free line, then a terminator, then the rest: the line comes
      first and the rest is split on its own. A CR directly followed by LF
      is one terminator, so a lone CR terminator counts only when the rest
      does not start with LF. */
  lemma SplitLinesCons(a: string, t: string, b: string)
    requires forall i :: 0 <= i < |a| ==> !IsLineBreak(a[i])
    requires IsTerminator(t)
    requires t == "\r" ==> |b| == 0 || b[0] != '\n'
    ensures SplitLines(a + t + b) == [a] + SplitLines(b)
  {
    var s := a + t + b;
    assert s == a + (t + b);
    FirstBreakAfter(a, t + b);
    var k := |a|;
    assert s[..k] == a;
    if t == "\r\n" {
      assert s[k] == '\r' && s[k + 1] == '\n';
      assert NextStart(s, k) == k + 2;
    } else {
      assert s[k] == t[0];
      if t[0] == '\r' && k + 1 < |s| {
        assert s[k + 1] == b[0];
      }
      assert NextStart(s, k) == k + |t|;
    }
    assert s[k + |t|..] == b;
    SplitLinesUnfold(s);
  }

  // ---------------------------------------------------------------------
  // Character mapping
  // ---------------------------------------------------------------------

  /** `s` with every `from` replaced by `to` (Python's `s.replace(from, to)`
      for one-character arguments). */
  function ReplaceChar(s: string, from: char, to: char): (r: string)
    ensures |r| == |s|
    ensures from != to ==> from !in r
    ensures forall i :: 0 <= i < |s| && s[i] != from ==> r[i] == s[i]
    ensures forall i :: 0 <= i < |s| && s[i] == from ==> r[i] == to
  {
    if |s| == 0 then []
    else [if s[0] == from then to else s[0]] + ReplaceChar(s[1..], from, to)
  }

  /** The lower-case form of `c` for the Latin, Latin-1 and Greek capital
      letters; every other character maps to itself. */
  function LowerChar(c: char): char {
    if 'A' <= c <= 'Z' then (c as int + 32) as char
    else if '\U{00C0}' <= c <= '\U{00DE}' && c != '\U{00D7}' then (c as int + 32) as char
    else if '\U{0391}' <= c <= '\U{03A9}' && c != '\U{03A2}' then (c as int + 32) as char
    else c
  }

  /** Python's `s.lower()` restricted to the letters `LowerChar` maps. */
  function Lower(s: string): (r: string)
    ensures |r| == |s|
    ensures forall i :: 0 <= i < |s| ==> r[i] == LowerChar(s[i])
  {
    seq(|s|, i requires 0 <= i < |s| => LowerChar(s[i]))
  }

  /** Lower-casing twice is lower-casing once. */
  lemma LowerIdempotent(s: string)
    ensures Lower(Lower(s)) == Lower(s)
  {
  }
}

=== FILE: units.dfy ===
/** The measurement unit named in the export's `Unit=` header line, and the
    Y-axis label the reader derives from it. */
module Units {
  import opened Options
  import opened Text

  /** The prefix of the header line that carries the unit. */
  const UnitPrefix: string := "Unit="

  /** The generic Y-axis label, used for every unit not recognised below. */
  const LevelLabel: string := "N\U{00ED}vel"

  /** The Y-axis label for power in dBm. */
  const PowerLabel: string := "Pot\U{00EA}ncia (dBm)"

  /** The Y-axis label for field strength at 3 m in dBuV/m. */
  const FieldStrengthLabel: string := "Intensidade de campo a 3 m (dB\U{00B5}V/m)"

  /** The lower-cased spellings of dBuV/m that select the field-strength
      label: ASCII `u`, MICRO SIGN and GREEK SMALL LETTER MU. */
  const FieldStrengthUnits: seq<string> := ["dbuv/m", "db\U{00B5}v/m", "db\U{03BC}v/m"]

  /** The index of the first line that starts with `Unit=`, if any. */
  function FirstUnitLine(lines: seq<string>): (r: Option<nat>)
    ensures r.None? <==> forall i :: 0 <= i < |lines| ==> !StartsWith(lines[i], UnitPrefix)
    ensures r.Some? ==> r.value < |lines| && StartsWith(lines[r.value], UnitPrefix)
    ensures r.Some? ==> forall i :: 0 <= i < r.value ==> !StartsWith(lines[i], UnitPrefix)
  {
    if |lines| == 0 then None
    else if StartsWith(lines[0], UnitPrefix) then Some(0)
    else match FirstUnitLine(lines[1..])
      case None => None
      case Some(k) => Some(k + 1)
  }

  /** The unit read from a sequence of lines: the third TAB field of the
      first `Unit=` line, or the empty string when that line has at most
      two fields or there is no such line. */
  function UnitFromLines(lines: seq<string>): (u: string)
    ensures '\t' !in u
    ensures FirstUnitLine(lines).None? ==> u == ""
    ensures FirstUnitLine(lines).Some? ==>
              var parts := Split(lines[FirstUnitLine(lines).value], '\t');
              u == if |parts| > 2 then parts[2] else ""
  {
    match FirstUnitLine(lines)
    case None => ""
    case Some(i) =>
      var parts := Split(lines[i], '\t');
      if |parts| > 2 then parts[2] else ""
  }

  /** The unit of a decoded `.result` text, searched over all its lines:
      the third TAB field of the first of its `splitlines()` lines that
      starts with `Unit=`, else empty. */
  function UnitOf(content: string): (u: string)
    ensures '\t' !in u
    ensures forall j :: 0 <= j < |u| ==> !IsLineBreak(u[j])
    ensures FirstUnitLine(SplitLines(content)).None? ==> u == ""
    ensures FirstUnitLine(SplitLines(content)).Some? ==>
              var parts := Split(SplitLines(content)[FirstUnitLine(SplitLines(content)).value], '\t');
              u == if |parts| > 2 then parts[2] else ""
  {
    var lines := SplitLines(content);
    var u := UnitFromLines(lines);
    assert forall j :: 0 <= j < |u| ==> !IsLineBreak(u[j]) by {
      if FirstUnitLine(lines).Some? {
        var line := lines[FirstUnitLine(lines).value];
        JoinSplit(line, '\t');
        var parts := Split(line, '\t');
        if |parts| > 2 {
          NoCharInPiece(parts, '\t', 2);
        }
      }
    }
    u
  }

  /** Every character of a piece occurs in the joined string. */
  lemma {:induction false} NoCharInPiece(parts: seq<string>, sep: char, k: int)
    requires 0 <= k < |parts|
    ensures forall j :: 0 <= j < |parts[k]| ==> parts[k][j] in Join(parts, sep)
  {
    if k > 0 {
      NoCharInPiece(parts[1..], sep, k - 1);
    }
  }

  /** Only the first `Unit=` line counts: lines after it change nothing. */
  lemma FirstUnitLineWins(lines: seq<string>, later: seq<string>)
    requires FirstUnitLine(lines).Some?
    ensures UnitFromLines(lines + later) == UnitFromLines(lines)
  {
    FirstUnitLineAppend(lines, later);
    var i := FirstUnitLine(lines).value;
    assert (lines + later)[i] == lines[i];
  }

  /** Appending lines after a `Unit=` line does not move the first one. */
  lemma {:induction false} FirstUnitLineAppend(lines: seq<string>, later: seq<string>)
    requires FirstUnitLine(lines).Some?
    ensures FirstUnitLine(lines + later) == FirstUnitLine(lines)
  {
    assert (lines + later)[0] == lines[0];
    if !StartsWith(lines[0], UnitPrefix) {
      assert (lines + later)[1..] == lines[1..] + later;
      FirstUnitLineAppend(lines[1..], later);
    }
  }

  /** A header `Unit=<TAB><TAB><unit>` that is the first `Unit=` line yields
      exactly `<unit>`, whatever lines follow it. */
  lemma {:induction false} UnitHeaderRoundTrip(before: seq<string>, unit: string, after: seq<string>)
    requires forall i :: 0 <= i < |before| ==> !StartsWith(before[i], UnitPrefix)
    requires '\t' !in unit
    ensures UnitFromLines(before + [UnitPrefix + "\t\t" + unit] + after) == unit
  {
    var line := UnitPrefix + "\t\t" + unit;
    var lines := before + [line] + after;
    assert lines[|before|] == line;
    assert line[..|UnitPrefix|] == UnitPrefix;
    assert forall i :: 0 <= i < |before| ==> lines[i] == before[i];
    assert FirstUnitLine(lines) == Some(|before|);
    assert line == UnitPrefix + ['\t'] + ("" + ['\t'] + unit);
    SplitAfterPiece(UnitPrefix, "" + ['\t'] + unit, '\t');
    SplitAfterPiece("", unit, '\t');
    SplitNoSeparator(unit, '\t');
    assert Split(line, '\t') == [UnitPrefix, "", unit];
  }

  /** A text whose first line is the header `Unit=<TAB><TAB>unit`, ended by
      CR LF as in a Windows export, has that unit, whatever follows. */
  lemma UnitOfHeaderLine(unit: string, rest: string)
    requires '\t' !in unit
    requires forall j :: 0 <= j < |unit| ==> !IsLineBreak(unit[j])
    ensures UnitOf(UnitPrefix + "\t\t" + unit + "\r\n" + rest) == unit
  {
    var header := UnitPrefix + "\t\t" + unit;
    assert forall j :: 0 <= j < |header| ==> !IsLineBreak(header[j]) by {
      forall j | 0 <= j < |header|
        ensures !IsLineBreak(header[j])
      {
        if j >= |UnitPrefix| + 2 {
          assert header[j] == unit[j - |UnitPrefix| - 2];
        }
      }
    }
    SplitLinesCons(header, "\r\n", rest);
    UnitHeaderRoundTrip([], unit, SplitLines(rest));
    assert [] + [header] + SplitLines(rest) == [header] + SplitLines(rest);
  }

  /** The Y-axis label for a unit, chosen on its lower-cased form with no
      trimming. */
  function YLabel(unit: string): (ylabel: string)
    ensures ylabel == PowerLabel <==> Lower(unit) == "dbm"
    ensures ylabel == FieldStrengthLabel <==> Lower(unit) in FieldStrengthUnits
    ensures ylabel == LevelLabel <==> Lower(unit) != "dbm" && Lower(unit) !in FieldStrengthUnits
  {
    if Lower(unit) == "dbm" then PowerLabel
    else if Lower(unit) in FieldStrengthUnits then FieldStrengthLabel
    else LevelLabel
  }

  /** The label ignores letter case: a unit and its lower-cased form get the
      same label. */
  lemma YLabelIgnoresCase(unit: string)
    ensures YLabel(unit) == YLabel(Lower(unit))
  {
    LowerIdempotent(unit);
  }

  /** Recognised spellings in any letter case, including a capital Greek mu. */
  lemma YLabelExamples()
    ensures YLabel("DBM") == PowerLabel
    ensures YLabel("dBm") == PowerLabel
    ensures YLabel("dBuV/m") == FieldStrengthLabel
    ensures YLabel("DB\U{039C}V/M") == FieldStrengthLabel
    ensures YLabel("") == LevelLabel
  {
    assert Lower("DBM") == "dbm";
    assert Lower("dBm") == "dbm";
    assert Lower("dBuV/m") == FieldStrengthUnits[0];
    assert Lower("DB\U{039C}V/M") == FieldStrengthUnits[2];
    assert Lower("") == "";
  }

  /** No trimming is done: a unit with a leading space, as in the header
      line `Unit=<TAB><TAB> dBm`, falls through to the generic label. */
  lemma YLabelDoesNotTrim()
    ensures YLabel(" dBm") == LevelLabel
    ensures YLabel("dBm ") == LevelLabel
  {
    assert Lower(" dBm") == " dbm";
    assert Lower("dBm ") == "dbm ";
  }

  /** A header line `Unit=<TAB><TAB> dBm`, with a space before the unit,
      yields the unit " dBm" and so the generic label, not the power one. */
  lemma SpacedHeaderGivesGenericLabel(before: seq<string>, after: seq<string>)
    requires forall i :: 0 <= i < |before| ==> !StartsWith(before[i], UnitPrefix)
    ensures UnitFromLines(before + [UnitPrefix + "\t\t" + " dBm"] + after) == " dBm"
    ensures YLabel(UnitFromLines(before + [UnitPrefix + "\t\t" + " dBm"] + after)) == LevelLabel
  {
    UnitHeaderRoundTrip(before, " dBm", after);
    YLabelDoesNotTrim();
  }
}
